=== FILE: README.md ===
# Team page roster — a Dafny model

This project models the pure decision logic of the team-page helper. The helper
reads the volunteer sheet and turns it into the `team.json` data bag that the
website renders. The model covers:

- **The record loop of `sheet_to_json`** (`Roster`):
  - the committee lists created up front;
  - the `ignore` filter and the chair-to-role rule;
  - validation of each row into a `TeamMember`;
  - the image step;
  - appending each member to its committee's list;
  - building the `TeamDataBag`.
- **`sort_committees`** (`Process`, with a generic stable sort in `StableSort`).
- **`normalized_member_name`** (`Process`).
- **The decisions of `download_member_image` and `download_url`** (`Images`):
  - whether a picture is fetched;
  - where the HEAD request goes;
  - whether the content type is accepted;
  - the file name the picture is stored under.
- **The `TeamMember`, `Committee` and `TeamDataBag` records** (`Models`), with the
  lenient `validate_url` before-validator.
- **`obfuscate_name`** (`Utils`).

`Text` models the Python string built-ins the code relies on, on ASCII text:
`strip`, `split()`, `' '.join`, `split(sep)[-1]`, `replace`, `casefold` and
`startswith`.

Things the model cannot see become parameters:

| In the source | In the model |
|---|---|
| pydantic's `AnyHttpUrl` grammar | a parameter `parse: string -> Option<HttpUrl>` (`None` where pydantic raises) |
| the HEAD and GET requests | a `Network` value with `head` and `get` |
| the image directory | an `ImageDir` listing its direct and nested entry names |
| the spreadsheet | the list of records produced by the rename and `fillna` steps (`seq<Row>`) |
| the iteration order of the Python set of committee names at team_page/process.py:60 | a parameter `keyOrder`, required to list each name exactly once |

The source reads the picture URL as `member.image_file`, but `TeamMember` has no
such field (see Findings). The loop is therefore modelled twice:
- `SheetToJsonAsWritten` reads the missing attribute;
- `SheetToJson` reads `image_url`, the field the model declares.

The properties below are proved about `SheetToJson`.

## Model

| member | source | states |
|---|---|---|
| Process.NormalizedMemberName | team_page/process.py:150-151 | The normalised name has the name's length and contains no space or upper-case letter. Each space became `_` and every other character was casefolded. |
| Process.NormalizedNameIdempotent | team_page/process.py:150-151 | Normalising a normalised name changes nothing. |
| Process.NormalizedNameIsFolded | team_page/process.py:107-108 | A normalised name equals its own casefold, so it can be compared with casefolded file stems. |
| Process.ReplaceCharPointwise | team_page/process.py:151 | Replacing one character by another keeps the length and changes exactly the positions holding that character. |
| Process.SortCommittees | team_page/process.py:90-98 | The output is a permutation of the input (equal multisets). It is ordered by rank, so every listed committee precedes every unlisted one and listed committees follow their `sort_order` index. The committees of each rank, unlisted ones included, keep their input order. |
| Process.IndexOf | team_page/process.py:95 | `sort_order.index(name)` for a listed name: the first position holding it. An unlisted name gets the rank after every listed position. |
| Process.SortCommitteesUnique | team_page/process.py:93-96 | Any sequence sorted by rank that keeps each rank's input order equals the model's output, so Python's stable `sorted` produces the same list. |
| Process.SortCommitteesIdempotent | team_page/process.py:90-98 | Sorting sorted committees again changes nothing. |
| Process.KeyFilterPartition | team_page/process.py:93-96 | For every rank, the committees of that rank in the input are the listed ones of that rank followed by the unlisted ones. |
| Process.ListedUnlistedPartition | team_page/process.py:94-96 | The two list comprehensions together hold exactly the input committees. |
| Process.Listed | team_page/process.py:94 | The first comprehension keeps only committees whose name is in `sort_order`. With `Unlisted`, it holds exactly the input (`ListedUnlistedPartition`). |
| Process.Unlisted | team_page/process.py:96 | The second comprehension keeps only committees whose name is not in `sort_order`. |
| StableSort.InsertionSortSorted | team_page/process.py:93-95 | The sort of the listed committees orders them by key. |
| StableSort.InsertionSort | team_page/process.py:93-95 | The sort returns a permutation of its input (equal multisets). Its order is stated by `InsertionSortSorted` and `InsertionSortStable`. |
| StableSort.InsertionSortStable | team_page/process.py:93-95 | The sort is stable: every key's elements keep their input order. |
| StableSort.StableSortUnique | team_page/process.py:93-95 | Two sequences that are both sorted by key and agree on every key's elements are equal. |
| Models.ValidateUrl | team_page/models.py:23-30 | An existing URL is returned unchanged. A non-empty string is stripped and parsed, and a parse failure gives `None`. The empty string and non-strings give `None`. |
| Models.ValidateUrlIdempotent | team_page/models.py:25-26 | Validating an already validated URL field again gives the same value. |
| Models.ValidateUrlIgnoresPadding | team_page/models.py:27-29 | Whitespace of any length on either side of a non-empty URL string, one side or both, never changes the validation outcome. |
| Models.Validate | team_page/models.py:6-21 | Over string, URL and other non-bytes values, a record is accepted exactly when `name` is present and a string and `role`, `committee` and `image_name` are strings when given. Given fields are copied. Absent fields take the defaults `""`, `"other"`, `""` and `None`. Each URL field is `validate_url` of its value. |
| Models.UrlFieldsNeverReject | team_page/models.py:15-30 | Changing the value of any URL field never changes whether the record is accepted. |
| Models.ExtraKeysIgnored | team_page/models.py:6-7 | Keys `TeamMember` does not declare do not affect validation. |
| Models.ValidateDumpRoundTrip | team_page/models.py:10-30 | Validating a dumped member rebuilds the same member, whatever the URL parser. |
| Utils.MaskName | team_page/utils.py:2-3 | `mask_name` keeps the first character and replaces every later one by `*`, preserving the length. |
| Utils.MaskWord | team_page/utils.py:6 | A word with an upper-case initial is masked and any other word is returned unchanged. |
| Utils.MaskWords | team_page/utils.py:6 | The generator yields one masked word per input word, in order: position `i` holds `MaskWord` of word `i`, itself a word. |
| Utils.ObfuscateName | team_page/utils.py:1-6 | Splitting the output on whitespace gives, word for word, the masked words of the input. Every whitespace character of the output is a single space between two non-space characters, so the words are joined by single spaces with nothing at either end. |
| Utils.ObfuscatePreservesWords | team_page/utils.py:5-6 | The output has as many words as the input, each of the same length. |
| Utils.ObfuscateMasksCapitalised | team_page/utils.py:2-6 | A word is masked exactly when its first character is upper case; other words pass through. |
| Utils.ObfuscateIdempotent | team_page/utils.py:1-6 | Obfuscating an obfuscated name changes nothing. |
| Utils.MaskWordIdempotent | team_page/utils.py:2-3 | A masked word still starts upper case and `*` is not a letter, so masking again changes nothing. |
| Text.SplitJoin | team_page/utils.py:5-6 | Splitting words joined by single spaces gives the words back. |
| Text.Split | team_page/utils.py:5 | `text.split()` returns only words: non-empty and free of whitespace. |
| Text.SplitSkipsSpace | team_page/utils.py:5 | A leading whitespace character adds no word and removes none: `split()` gives the same words without it. |
| Text.SplitWordThen | team_page/utils.py:5 | A word followed by nothing or by whitespace is the first word of `split()`, and the rest of the words come from what follows it. |
| Text.Join | team_page/utils.py:6 | `' '.join` of a non-empty list is as long as its words together plus one space between each neighbouring pair. |
| Text.JoinSpacing | team_page/utils.py:6 | `' '.join` of words has a single space between neighbouring words and no whitespace at either end. |
| Text.Strip | team_page/process.py:128 | `strip()` returns a slice of the input with only whitespace before and after it, and no whitespace at either end of the slice; an unpadded string comes back unchanged. |
| Text.StripIdempotent | team_page/models.py:29 | Stripping twice is stripping once. |
| Text.AfterLast | team_page/process.py:104 | `split(sep)[-1]` is a suffix with no separator, preceded by a separator unless it is the whole string. |
| Text.AfterLastSeparator | team_page/process.py:138 | `split(sep)[-1]` of `p + sep + t` is `t` when `t` has no separator. |
| Text.ReplaceAllRemovesPattern | team_page/process.py:113-114 | After replacing every occurrence of a pattern by a text none of whose characters occurs in the pattern, no occurrence is left. |
| Text.ReplaceAllIdempotent | team_page/process.py:113-114 | Such a replacement applied twice is applied once. |
| Text.ReplaceAll | team_page/process.py:151 | `str.replace` with a replacement as long as the pattern, such as `" "` by `"_"`, keeps the string's length. What it does at each position is stated by `ReplaceAllAtPattern`, `ReplaceAllSkipsChar` and `ReplaceAllWithoutPattern`. |
| Text.ReplaceAllAtPattern | team_page/process.py:114 | An occurrence of the pattern at the front becomes the replacement, and the scan resumes right after the occurrence, so occurrences never overlap. |
| Text.ReplaceAllSkipsChar | team_page/process.py:114 | A first character at which no occurrence starts is copied unchanged, and the scan moves on by one character. |
| Text.ReplaceAllWithoutPattern | team_page/process.py:114 | A string in which the pattern occurs nowhere comes back unchanged. |
| Text.CaseFold | team_page/process.py:66 | `casefold()` keeps the length and leaves no upper-case letter. |
| Text.Lower | team_page/process.py:66 | An upper-case ASCII letter becomes the letter 32 code points higher, its lower-case form. Every other character is unchanged, and the result is never upper case. |
| Text.CaseFoldPointwise | team_page/process.py:66 | Each position of the casefolded string holds the lower-case form of the input's character at that position. |
| Text.CaseFoldConcat | team_page/process.py:66 | Casefolding a concatenation casefolds each part separately. |
| Images.Stem | team_page/process.py:108 | `Path.stem` is a prefix of the name. When it differs, it drops a final `.suffix` that contains no other dot. |
| Images.StemOfStoredName | team_page/process.py:138 | A file stored as `<stem>.<ext>`, with a dot-free extension, has `stem` as its stem. |
| Images.PathFile | team_page/process.py:104 | `url.path.split("/")[-1]` exists exactly when the URL has a path, and is the path's suffix after its last `/`. |
| Images.ExistingStems | team_page/process.py:108 | Every file in the image directory, at the top or further down, contributes its casefolded stem, and no collected stem has an upper-case letter. |
| Images.ExistingStemHasFile | team_page/process.py:108 | Every collected stem is the casefolded stem of some file in the directory. |
| Images.Extension | team_page/process.py:138 | `content_type.split('/')[-1]` is the content type's suffix after its last `/`. |
| Images.ProbeUrl | team_page/process.py:112-114 | The HEAD request goes to the member's URL, or for a `drive.google.com` URL to its text with every `open` replaced by `uc`. No `open` is left in that text. |
| Images.ProbeUrlIdempotent | team_page/process.py:112-114 | Applying the Drive rewrite to an already rewritten Drive URL leaves it unchanged. |
| Images.PlanImage | team_page/process.py:100-115 | A fetch is planned exactly when the member has a picture URL, no entry is named after the URL's last path segment, and no existing file's casefolded stem equals the normalised name (exact match). The GET uses the member's URL and the file stem is the normalised name. |
| Images.DownloadUrl | team_page/process.py:117-148 | A failed HEAD, a missing header or a content type not starting with `image/` raises. Otherwise a failed GET is swallowed and a successful one stores `<stem>.<text after the last '/' of the stripped content type>`. |
| Images.DownloadUrlSaves | team_page/process.py:128-138 | An image content type and a successful GET save the picture under that exact name. |
| Images.DownloadMemberImage | team_page/process.py:100-115 | Reading `image_file` always raises. Reading `image_url`, nothing is requested unless a fetch is planned, and a planned fetch is `download_url`. |
| Images.SavedImageIsNotFetchedAgain | team_page/process.py:105-110 | For a non-empty member name and a non-empty content-type subtype without a dot: after the picture is saved, handling the same member again makes no request. |
| Images.ExistingImageSkipped | team_page/process.py:103-110 | "Jane Doe" with `jane_doe.png` on disk is not fetched, for any picture URL whose last path segment names no file in the directory (or that has no path). |
| Roster.RowMemberFields | team_page/process.py:64-75 | A row yields a member only when its `ignore` cell casefolds to "yes". The member's name is the `name` cell. Its role is "Chair" exactly when `chair` casefolds to "yes", and "" otherwise. It is filed under `record.get("committee", "other")`. |
| Roster.RoleOf | team_page/process.py:68 | The role is "Chair" exactly when the `chair` cell casefolds to "yes", and "" otherwise. |
| Roster.BucketKey | team_page/process.py:75 | `record.get("committee", "other")`: the `committee` cell when the row has one, and `"other"`, `TeamMember`'s default committee, when it does not. |
| Roster.StringRowsValidate | team_page/process.py:69-73 | An included row of string cells with a `name` always validates, so the `ValidationError` branch is never taken for sheet rows. |
| Roster.ProcessRow | team_page/process.py:64-75 | One iteration raises on a missing `name`, `ignore` or `chair` column, on an image exception, or on a committee without a list. Otherwise it keeps the same committee names. A skipped row changes neither the lists nor the image directory. An accepted member is appended to its committee's list, and the image directory gains what its picture step saved. |
| Roster.RowAccepted | team_page/process.py:74-75 | An accepted member whose picture step does not raise goes at the end of its committee's list, and a saved picture joins the image directory. |
| Roster.ProcessRowsBuckets | team_page/process.py:64-75 | After a completed loop every row had its columns and every accepted member found a list. Each list grew by exactly its committee's accepted members, in row order. |
| Roster.ProcessRowsCompletes | team_page/process.py:64-75 | When picture URLs serve images, the loop completes if every row has its columns and every accepted member has a list. |
| Roster.RowCompletes | team_page/process.py:64-75 | When images are served, a row with its columns whose member has a list passes, skipped or not. |
| Roster.ProcessRows | team_page/process.py:64-75 | The loop keeps the set of committee names it started with. What each list holds afterwards is stated by `Roster.ProcessRowsBuckets`. |
| Roster.InitialBuckets | team_page/process.py:60 | The lists are created for exactly the non-empty committee cells of all rows, including excluded rows, and every list starts empty. |
| Roster.CommitteeKeys | team_page/process.py:60 | Every non-empty `committee` cell is a committee name, and the empty string never is. |
| Roster.CommitteeKeyHasRow | team_page/process.py:60 | Every committee name comes from some row's `committee` cell. |
| Roster.SheetToJsonWith | team_page/process.py:55-88 | The run completes exactly when the loop does, and keeps the loop's image directory and error. A completed run publishes every committee named in the sheet, each holding its accepted members in row order, in `sort_committees` order, under the configured image settings. |
| Roster.LoopPublishesExpected | team_page/process.py:75-78 | After a completed loop, the committees built from the lists are one per committee name, each holding exactly its accepted members. |
| Roster.Published | team_page/process.py:78 | One committee per listed name, in the listed order, with that name, an empty comment and the name's list as members. |
| Roster.SheetToJson | team_page/process.py:55-88 | The same as `SheetToJsonWith`, with the picture read from `image_url`: the run completes exactly when the loop does, returns the loop's error or image directory, and publishes the configured image settings with `sort_committees` of one committee per name holding its accepted members. |
| Roster.SheetToJsonCompletes | team_page/process.py:60-75 | When picture URLs serve images, a run completes exactly when every row has its columns and every accepted member's committee is a non-empty committee cell of the sheet. |
| Roster.MembersBelongToTheirCommittee | team_page/process.py:75-80 | Every published member sits in the committee its `committee` field names. That committee is named in the sheet and has an empty comment. |
| Roster.AcceptedFromIncludedRows | team_page/process.py:64-75 | Every included row that validates contributes its member to the accepted list. |
| Roster.EmptyCommitteeAborts | team_page/process.py:60-75 | An included row with an empty `committee` cell has no list to go in, so the run fails. |
| Roster.CommitteeWithoutMembersPublished | team_page/process.py:60-78 | A committee whose only row is excluded is still published, with no members. |
| Roster.SheetToJsonAsWritten | team_page/process.py:55-88 | With `member.image_file` read as written, a completed run has the same committee ordering. |
| Roster.AsWrittenStopsAtFirstMember | team_page/process.py:100-102 | As written, a loop that completes has met no accepted member. |
| Roster.AsWrittenPublishesNoMember | team_page/process.py:100-102 | As written, a completed run publishes no member at all. |
| Roster.JaneDoeRunAsWritten | team_page/process.py:100-102 | As written, a sheet holding only Jane Doe's row stops with the missing-attribute error. |
| Roster.JaneDoeRun | team_page/process.py:55-88 | Reading `image_url`, the Board lists Jane Doe as chair and her JPEG is stored as `jane_doe.jpeg`. |

## Left out

- Reading the sheet and the pandas rename, `fillna` and `to_dict` steps (team_page/process.py:37-40, 59). The input is the list of records they produce.
- Cloning, checkout, commit, pull and push, the GitHub pull request and `check_for_changes` (team_page/process.py:43-53, 158-259). These are external version-control and network plumbing.
- Writing the downloaded bytes and `git add` (team_page/process.py:139-143), and the JSON serialisation of `save_json` (team_page/process.py:153-156). Only the file name is modelled.
- Logging, the YAML configuration and environment loading (team_page/__init__.py), and the command-line entry (team_page/main.py).
- Two defects outside the modelled core:
  - team_page/process.py:16 imports `WEBSITE_REPOSITORY_TOKEN`, which team_page/__init__.py does not define;
  - team_page/main.py:21 calls a `create_databag` that does not exist.

  Both break start-up rather than the logic modelled here.
- Unicode:
  - `casefold`, `isupper` and whitespace are modelled for ASCII;
  - `Path.stem` is modelled on a plain file name.
- Models.Validate: bytes and bytearray values, which pydantic's lax `str` mode accepts and decodes as UTF-8, are modelled as `Other` and rejected. Sheet rows only ever hold strings, so the loop never passes bytes.
- `ReplaceAll` requires a non-empty pattern. Python's `replace` with an empty pattern inserts between characters, but the code only replaces `" "` and `"open"`.
- The behaviour of the `AnyHttpUrl` grammar and of the HTTP server are parameters.
  - `Images.DownloadUrl` treats every `RequestException` of the GET as one failed GET.
  - `Images.DownloadMemberImage` treats a URL without a path as "no file named after it". This matches the `contextlib.suppress` at team_page/process.py:103.
- Images.SavedImageIsNotFetchedAgain: holds only for a non-empty member name and a non-empty subtype without a dot. With a dotted subtype such as `image/vnd.microsoft.icon` the file is `jane_doe.vnd.microsoft.icon`, whose stem `jane_doe.vnd.microsoft` never equals the normalised name, so the source (and the model) downloads the picture again on every run; the same holds for an empty subtype or an empty name.
- Images.DownloadUrl: the GET is one yes/no answer, so two cases are not modelled. (a) A `RequestException` raised while the body streams, after `open(member_image, "wb")` at team_page/process.py:140 created the file, is swallowed at line 147 with the partial file left on disk; the model reports `DownloadFailed` and leaves the directory unchanged, so a later row with the same normalised name is fetched in the model but skipped by the source. (b) `open` itself can fail (for example a normalised name holding `/` that points into a missing subdirectory); the `OSError` is not a `RequestException` and ends the run, while the model reports `Saved`.
- `Roster.ProcessRowsCompletes` and `Roster.SheetToJsonCompletes` assume that the HEAD request always returns an image content type. With other answers the run can also stop at the image step, as `Roster.ProcessRow` states.
- `Roster.SheetToJsonAsWritten` states only the ordering of a completed run. That run has no members at all, as `Roster.AsWrittenPublishesNoMember` states.

Behaviour of the code worth noting:
- An existing picture is detected by an exact match of the casefolded stem, not by a substring.
- `image_name` is never assigned by the loop.
- A failed HEAD or a non-image content type raises a `ValueError`. The `except requests.exceptions.RequestException` at team_page/process.py:147 does not catch it, so it ends the run.

## Findings

| source | as written | input that shows it | evidently intended | confidence | as-written member | corrected member |
|---|---|---|---|---|---|---|
| team_page/process.py:101 | `download_member_image` reads `member.image_file`, but `TeamMember` declares only `image_url` (team_page/models.py:21), so the first accepted member raises `AttributeError` and the run ends | a sheet holding one included row, Jane Doe of the Board, with a picture URL (`Roster.JaneDoeRunAsWritten`) | the picture URL is read from `image_url`, and the run publishes the Board with Jane as chair and stores `jane_doe.jpeg` (`Roster.JaneDoeRun`) | high, not executed | Roster.AsWrittenPublishesNoMember | Roster.SheetToJson |

=== FILE: images.dfy ===
/**
 The decision part of `download_member_image` and `download_url` in
 team_page/process.py: whether a member's picture is fetched, which URLs the
 HEAD and GET requests go to, whether the response is accepted as an image, and
 the file name it is stored under.

 The file system and the network are inputs: `ImageDir` lists what the image
 directory holds, and `Network` answers the HEAD and GET requests.
 */
module Images {
  import opened Wrappers
  import opened Text
  import opened Models
  import opened Process

  /**
   The image directory as the two existence checks see it: `top` holds the names of
   its direct entries, `nested` the names of entries further down (`rglob("*")`
   yields both).
   */
  datatype ImageDir = ImageDir(top: set<string>, nested: set<string>)

  /** The HEAD response: a request error, or the `Content-Type` header if there is one. */
  datatype Probe = ProbeFailed | Headers(contentType: Option<string>)

  /** The HEAD and GET requests; `get` tells whether the GET succeeded. */
  datatype Network = Network(head: string -> Probe, get: string -> bool)

  /** The exceptions that escape `download_member_image` and end the run. */
  datatype ImageError =
    | NoSuchAttribute(attribute: string)  // reading a field `TeamMember` does not have
    | HeadFailed(url: string)             // the HEAD request failed (re-raised as ValueError)
    | NoContentType(url: string)          // no Content-Type header: `None.strip()`
    | NotAnImage(url: string)             // the content type is not `image/...`

  /** What handling one member's image amounts to. */
  datatype Outcome =
    | Skipped                    // nothing fetched
    | Saved(fileName: string)    // the picture was written under this name
    | DownloadFailed             // the GET failed; logged, the run goes on
    | Raised(error: ImageError)  // an exception escaped

  /** Which member attribute holds the picture's URL. */
  datatype ImageLookup =
    | ImageFileAttribute  // `member.image_file`, as the source reads it
    | ImageUrlField       // `member.image_url`, the field `TeamMember` declares

  const DriveHost := "drive.google.com"

  /** `Path(name).stem`: the name without its last suffix; a leading or trailing dot is not a suffix. */
  function Stem(name: string): (r: string)
    ensures |r| <= |name| && r == name[..|r|]
    ensures r != name ==> 0 < |r| < |name| - 1 && name[|r|] == '.' && !Contains(name[|r| + 1..], '.')
  {
    var i := LastIndexOf(name, '.');
    if 0 < i < |name| - 1 then
      name[..i]
    else name
  }

  /** The name an image is stored under has the normalised name as its stem, when the extension is a plain word. */
  lemma StemOfStoredName(stem: string, ext: string)
    requires stem != [] && ext != [] && !Contains(ext, '.')
    ensures Stem(stem + "." + ext) == stem
  {
    var name := stem + "." + ext;
    assert name[|stem|] == '.';
    assert forall j :: |stem| < j < |name| ==> name[j] == ext[j - |stem| - 1];
    assert LastIndexOf(name, '.') == |stem|;
    assert name[..|stem|] == stem;
  }

  /** The casefolded stems of everything in the image directory. */
  function ExistingStems(dir: ImageDir): (r: set<string>)
    ensures forall n :: n in dir.top + dir.nested ==> CaseFold(Stem(n)) in r
    ensures forall x, i :: x in r && 0 <= i < |x| ==> !IsUpper(x[i])
  {
    set n | n in dir.top + dir.nested :: CaseFold(Stem(n))
  }

  /** Every existing stem is the casefolded stem of some file in the directory. */
  lemma ExistingStemHasFile(dir: ImageDir, x: string)
    requires x in ExistingStems(dir)
    ensures exists n :: n in dir.top + dir.nested && x == CaseFold(Stem(n))
  {
  }

  /** `(image_dir / segment).exists()`; the empty segment names the directory itself. */
  predicate EntryExists(dir: ImageDir, segment: string) {
    segment == "" || segment in dir.top
  }

  /** The last segment of a URL path, `url.path.split("/")[-1]`, when the URL has a path. */
  function PathFile(u: HttpUrl): (r: Option<string>)
    ensures r.Some? <==> u.path.Some?
    ensures r.Some? ==> var p := u.path.value;
              && |r.value| <= |p| && r.value == p[|p| - |r.value|..] && !Contains(r.value, '/')
              && (|r.value| == |p| || p[|p| - |r.value| - 1] == '/')
  {
    match u.path
    case None => None
    case Some(p) => Some(AfterLast(p, '/'))
  }

  /** Where the HEAD request goes: a Google Drive link has every `open` replaced by `uc`. */
  function ProbeUrl(u: HttpUrl): (r: string)
    ensures u.host != DriveHost ==> r == u.text
    ensures u.host == DriveHost ==> r == ReplaceAll(u.text, "open", "uc")
    ensures u.host == DriveHost ==> forall i: nat :: !OccursAt(r, "open", i)
  {
    if u.host == DriveHost then
      ReplaceAllRemovesPattern(u.text, "open", "uc");
      ReplaceAll(u.text, "open", "uc")
    else u.text
  }

  /** Rewriting an already rewritten Drive URL changes nothing more. */
  lemma ProbeUrlIdempotent(u: HttpUrl)
    requires u.host == DriveHost
    ensures ProbeUrl(u.(text := ProbeUrl(u))) == ProbeUrl(u)
  {
    ReplaceAllIdempotent(u.text, "open", "uc");
  }

  /** The decision `download_member_image` takes before any request is made. */
  datatype Plan =
    | NoReference                // the member has no picture URL
    | UrlFileExists              // a file named after the URL's last path segment exists
    | StemTaken                  // some file's casefolded stem equals the normalised name
    | Fetch(probeUrl: string, downloadUrl: string, stem: string)

  /**
   Whether to fetch, and from where. A fetch happens only for a member with a picture
   URL when no file is named after the URL's last path segment and no file's casefolded
   stem equals the normalised member name (an exact match, not a substring). The HEAD
   request may go to a rewritten Drive URL; the GET always uses the member's URL.
   */
  function PlanImage(name: string, ref: Option<HttpUrl>, dir: ImageDir): (r: Plan)
    ensures r.Fetch? <==>
              ref.Some? && !(PathFile(ref.value).Some? && EntryExists(dir, PathFile(ref.value).value))
              && NormalizedMemberName(name) !in ExistingStems(dir)
    ensures r.Fetch? ==>
              r.downloadUrl == ref.value.text && r.probeUrl == ProbeUrl(ref.value)
              && r.stem == NormalizedMemberName(name)
  {
    match ref
    case None => NoReference
    case Some(u) =>
      if PathFile(u).Some? && EntryExists(dir, PathFile(u).value) then UrlFileExists
      else
        var n := NormalizedMemberName(name);
        if n in ExistingStems(dir) then StemTaken
        else Fetch(ProbeUrl(u), u.text, n)
  }

  /** `content_type.split('/')[-1]`. */
  function Extension(contentType: string): (r: string)
    ensures |r| <= |contentType| && r == contentType[|contentType| - |r|..] && !Contains(r, '/')
    ensures |r| == |contentType| || contentType[|contentType| - |r| - 1] == '/'
  {
    AfterLast(contentType, '/')
  }

  /** The stripped content type accepted by `download_url`: non-empty and starting with `image/`. */
  predicate IsImageType(contentType: string) {
    contentType != "" && StartsWith(contentType, "image/")
  }

  /**
   `download_url`: a failed HEAD, a missing header or a non-image content type raises;
   a failed GET is logged and swallowed; otherwise the body is stored as
   `<stem>.<text after the last '/' of the content type>`.
   */
  function DownloadUrl(probeUrl: string, downloadUrl: string, stem: string, net: Network): (r: Outcome)
    ensures r.Raised? <==>
              !(net.head(probeUrl).Headers? && net.head(probeUrl).contentType.Some?
                && IsImageType(Strip(net.head(probeUrl).contentType.value)))
    ensures r.Saved? <==> !r.Raised? && net.get(downloadUrl)
    ensures r.Saved? ==>
              r.fileName == stem + "." + Extension(Strip(net.head(probeUrl).contentType.value))
    ensures !r.Skipped?
  {
    match net.head(probeUrl)
    case ProbeFailed => Raised(HeadFailed(probeUrl))
    case Headers(None) => Raised(NoContentType(probeUrl))
    case Headers(Some(header)) =>
      var contentType := Strip(header);
      if !IsImageType(contentType) then Raised(NotAnImage(probeUrl))
      else if !net.get(downloadUrl) then DownloadFailed
      else Saved(stem + "." + Extension(contentType))
  }

  /** An image content type and a successful GET store the body under the stem and the subtype. */
  lemma DownloadUrlSaves(probeUrl: string, downloadUrl: string, stem: string, net: Network, header: string)
    requires net.head(probeUrl) == Headers(Some(header)) && IsImageType(Strip(header)) && net.get(downloadUrl)
    ensures DownloadUrl(probeUrl, downloadUrl, stem, net) == Saved(stem + "." + Extension(Strip(header)))
  {
  }

  /** The member's picture URL, read through the given attribute. */
  function ImageReference(m: Member, lookup: ImageLookup): Result<Option<HttpUrl>, ImageError> {
    match lookup
    case ImageFileAttribute => Err(NoSuchAttribute("image_file"))
    case ImageUrlField => Ok(m.imageUrl)
  }

  /**
   `download_member_image`: the network is consulted only when the plan is to fetch,
   so a member without a picture or with an image already on disk costs no request.
   */
  function DownloadMemberImage(m: Member, dir: ImageDir, net: Network, lookup: ImageLookup): (r: Outcome)
    ensures lookup == ImageFileAttribute ==> r == Raised(NoSuchAttribute("image_file"))
    ensures lookup == ImageUrlField && !PlanImage(m.name, m.imageUrl, dir).Fetch? ==> r == Skipped
    ensures lookup == ImageUrlField && PlanImage(m.name, m.imageUrl, dir).Fetch? ==>
              var p := PlanImage(m.name, m.imageUrl, dir);
              r == DownloadUrl(p.probeUrl, p.downloadUrl, p.stem, net)
  {
    match ImageReference(m, lookup)
    case Err(e) => Raised(e)
    case Ok(ref) =>
      match PlanImage(m.name, ref, dir)
      case Fetch(probeUrl, downloadUrl, stem) => DownloadUrl(probeUrl, downloadUrl, stem, net)
      case _ => Skipped
  }

  /** The image directory after handling one member: a saved picture becomes a direct entry. */
  function DirAfter(dir: ImageDir, outcome: Outcome): ImageDir {
    if outcome.Saved? then ImageDir(dir.top + {outcome.fileName}, dir.nested) else dir
  }

  /**
   A picture saved with a plain extension is found again: handling the same member
   against the directory that now holds it makes no request.
   */
  lemma SavedImageIsNotFetchedAgain(m: Member, dir: ImageDir, net: Network)
    requires DownloadMemberImage(m, dir, net, ImageUrlField).Saved?
    requires m.name != ""
    requires var p := PlanImage(m.name, m.imageUrl, dir);
             var ext := Extension(Strip(net.head(p.probeUrl).contentType.value));
             ext != "" && !Contains(ext, '.')
    ensures !PlanImage(m.name, m.imageUrl, DirAfter(dir, DownloadMemberImage(m, dir, net, ImageUrlField))).Fetch?
  {
    var p := PlanImage(m.name, m.imageUrl, dir);
    var outcome := DownloadMemberImage(m, dir, net, ImageUrlField);
    var n := NormalizedMemberName(m.name);
    var ext := Extension(Strip(net.head(p.probeUrl).contentType.value));
    assert outcome == Saved(n + "." + ext);
    StoredStemExists(dir, n, ext);
  }

  /** A file stored as `<n>.<ext>`, with `n` casefolded and a plain `ext`, makes `n` an existing stem. */
  lemma StoredStemExists(dir: ImageDir, n: string, ext: string)
    requires n != [] && ext != [] && !Contains(ext, '.')
    requires forall i :: 0 <= i < |n| ==> !IsUpper(n[i])
    ensures n in ExistingStems(ImageDir(dir.top + {n + "." + ext}, dir.nested))
  {
    var f := n + "." + ext;
    StemOfStoredName(n, ext);
    CaseFoldOfFolded(n);
    assert CaseFold(Stem(f)) == n;
    assert f in dir.top + {f};
  }

  /**
   A member named "Jane Doe" whose `jane_doe.png` is already on disk is not fetched,
   whatever picture URL they give, unless its last path segment itself names a file there.
   */
  lemma ExistingImageSkipped(u: HttpUrl)
    requires PathFile(u) != Some("") && PathFile(u) != Some("jane_doe.png")
    ensures PlanImage("Jane Doe", Some(u), ImageDir({"jane_doe.png"}, {})) == StemTaken
  {
    var dir := ImageDir({"jane_doe.png"}, {});
    JaneDoeNormalized();
    JaneStemExists();
    assert !(PathFile(u).Some? && EntryExists(dir, PathFile(u).value));
    PlanStemTaken("Jane Doe", u, dir);
  }

  lemma JaneStemExists()
    ensures "jane_doe" in ExistingStems(ImageDir({"jane_doe.png"}, {}))
  {
    var dir := ImageDir({"jane_doe.png"}, {});
    JaneDoeStem();
    assert "jane_doe.png" in dir.top + dir.nested;
  }

  /** With no file named after the URL, an existing stem equal to the normalised name stops the fetch. */
  lemma PlanStemTaken(name: string, u: HttpUrl, dir: ImageDir)
    requires !(PathFile(u).Some? && EntryExists(dir, PathFile(u).value))
    requires NormalizedMemberName(name) in ExistingStems(dir)
    ensures PlanImage(name, Some(u), dir) == StemTaken
  {
  }

  lemma PhotoPathFile(u: HttpUrl)
    requires u.path == Some("/photo.jpg")
    ensures PathFile(u) == Some("photo.jpg")
  {
    assert "/photo.jpg" == [] + ['/'] + "photo.jpg";
    assert !Contains("photo.jpg", '/');
    AfterLastSeparator([], "photo.jpg", '/');
  }

  lemma JaneDoeNormalized()
    ensures NormalizedMemberName("Jane Doe") == "jane_doe"
  {
    var r := NormalizedMemberName("Jane Doe");
    assert |r| == 8;
    assert r[0] == 'j' && r[1] == 'a' && r[2] == 'n' && r[3] == 'e';
    assert r[4] == '_' && r[5] == 'd' && r[6] == 'o' && r[7] == 'e';
  }

  lemma JaneDoeStem()
    ensures CaseFold(Stem("jane_doe.png")) == "jane_doe"
  {
    StemOfStoredName("jane_doe", "png");
    assert "jane_doe" + "." + "png" == "jane_doe.png";
    CaseFoldOfFolded("jane_doe");
  }
}

=== FILE: models.dfy ===
/**
 The pydantic records of team_page/models.py: `TeamMember`, `Committee` and
 `TeamDataBag`, and the lenient validation that turns a keyword-argument map into
 a `TeamMember` or rejects it.

 The URL grammar of pydantic's `AnyHttpUrl` is not modelled: validation takes the
 parser as a parameter `parse`, which returns the parsed URL or `None` where
 pydantic would raise.
 */
module Models {
  import opened Wrappers
  import opened Text

  /** A parsed `AnyHttpUrl`: its serialised text, its host and its (possibly absent) path. */
  datatype HttpUrl = HttpUrl(text: string, host: string, path: Option<string>)

  /** A keyword-argument value: a string, an already-parsed URL, or any other object that is neither a string nor bytes. */
  datatype Value = Str(s: string) | Link(url: HttpUrl) | Other

  /** The keyword arguments passed to a model constructor. */
  type Fields = map<string, Value>

  /** `TeamMember`: the seven URL-typed fields are optional. */
  datatype Member = Member(
    name: string,
    role: string,
    committee: string,
    imageName: string,
    github: Option<HttpUrl>,
    linkedin: Option<HttpUrl>,
    website: Option<HttpUrl>,
    twitter: Option<HttpUrl>,
    bluesky: Option<HttpUrl>,
    mastodon: Option<HttpUrl>,
    imageUrl: Option<HttpUrl>)

  /** `Committee`: `comment` defaults to the empty string. */
  datatype Committee = Committee(name: string, comment: string, members: seq<Member>)

  /** `TeamDataBag`: the published document. */
  datatype DataBag = DataBag(teamImages: string, defaultImage: string, types: seq<Committee>)

  const DefaultRole := ""
  const DefaultCommittee := "other"
  const DefaultImageName := ""

  /** The string-typed fields that have a default. */
  const OptionalStrKeys: set<string> := {"role", "committee", "image_name"}

  /** The fields validated by `validate_url`. */
  const UrlKeys: set<string> := {"image_url", "github", "linkedin", "website", "twitter", "bluesky", "mastodon"}

  /** Every field `TeamMember` declares; any other key is ignored (`extra="ignore"`). */
  const MemberKeys: set<string> := {"name"} + OptionalStrKeys + UrlKeys

  /**
   `validate_url`, the before-validator of every URL field. It never raises: a URL
   passes through, a non-empty string is stripped and parsed with a parse failure
   turned into `None`, and anything else (the empty string, a number, `None`)
   becomes `None`.
   */
  function ValidateUrl(v: Value, parse: string -> Option<HttpUrl>): (r: Option<HttpUrl>)
    ensures v.Link? ==> r == Some(v.url)
    ensures v.Other? || v == Str("") ==> r == None
    ensures v.Str? && v.s != "" ==> r == parse(Strip(v.s))
  {
    match v
    case Link(u) => Some(u)
    case Str(s) => if s != "" then parse(Strip(s)) else None
    case Other => None
  }

  /** A value `validate_url` has already produced is returned unchanged when validated again. */
  lemma ValidateUrlIdempotent(v: Value, parse: string -> Option<HttpUrl>)
    ensures ValidateUrl(UrlValue(ValidateUrl(v, parse)), parse) == ValidateUrl(v, parse)
  {
  }

  /**
   Whitespace around a URL string, of any length on either side, is stripped before
   parsing, so it never changes the outcome.
   */
  lemma ValidateUrlIgnoresPadding(p: string, s: string, q: string, parse: string -> Option<HttpUrl>)
    requires AllSpace(p) && AllSpace(q) && s != ""
    ensures ValidateUrl(Str(p + s + q), parse) == ValidateUrl(Str(s), parse)
  {
    StripIgnoresPadding(p, s, q);
  }

  /** A URL field after validation; an absent field takes its default `None`. */
  function UrlField(fields: Fields, key: string, parse: string -> Option<HttpUrl>): Option<HttpUrl>
  {
    if key in fields then ValidateUrl(fields[key], parse) else None
  }

  /** A `str` field with a default: absent gives the default, a string is kept, anything else fails. */
  function StrField(fields: Fields, key: string, default: string): Option<string>
  {
    if key !in fields then Some(default)
    else if fields[key].Str? then Some(fields[key].s)
    else None
  }

  /** What `TeamMember` demands of its input: `name` present and a string, and the other `str` fields strings when given. */
  predicate Acceptable(fields: Fields) {
    && "name" in fields && fields["name"].Str?
    && forall k :: k in OptionalStrKeys && k in fields ==> fields[k].Str?
  }

  /**
   `TeamMember(**fields)`: `None` stands for the `ValidationError` it raises.
   Whether a record is accepted depends on its `str` fields only, so no URL field
   can cause a rejection; absent fields take their declared defaults.
   */
  function Validate(fields: Fields, parse: string -> Option<HttpUrl>): (r: Option<Member>)
    ensures r.Some? <==> Acceptable(fields)
    ensures r.Some? ==> r.value.name == fields["name"].s
    ensures r.Some? && "role" in fields ==> fields["role"] == Str(r.value.role)
    ensures r.Some? && "committee" in fields ==> fields["committee"] == Str(r.value.committee)
    ensures r.Some? && "image_name" in fields ==> fields["image_name"] == Str(r.value.imageName)
    ensures r.Some? && "role" !in fields ==> r.value.role == DefaultRole
    ensures r.Some? && "committee" !in fields ==> r.value.committee == DefaultCommittee
    ensures r.Some? && "image_name" !in fields ==> r.value.imageName == DefaultImageName
    ensures r.Some? ==>
              && r.value.github == UrlField(fields, "github", parse)
              && r.value.linkedin == UrlField(fields, "linkedin", parse)
              && r.value.website == UrlField(fields, "website", parse)
              && r.value.twitter == UrlField(fields, "twitter", parse)
              && r.value.bluesky == UrlField(fields, "bluesky", parse)
              && r.value.mastodon == UrlField(fields, "mastodon", parse)
              && r.value.imageUrl == UrlField(fields, "image_url", parse)
  {
    var role := StrField(fields, "role", DefaultRole);
    var committee := StrField(fields, "committee", DefaultCommittee);
    var imageName := StrField(fields, "image_name", DefaultImageName);
    StrFieldsAcceptable(fields);
    if "name" !in fields || !fields["name"].Str? || role.None? || committee.None? || imageName.None? then
      None
    else
      var m := Member(
        fields["name"].s, role.value, committee.value, imageName.value,
        UrlField(fields, "github", parse),
        UrlField(fields, "linkedin", parse),
        UrlField(fields, "website", parse),
        UrlField(fields, "twitter", parse),
        UrlField(fields, "bluesky", parse),
        UrlField(fields, "mastodon", parse),
        UrlField(fields, "image_url", parse));
      Some(m)
  }

  /** The three defaulted `str` fields are all present as strings exactly when the record's optional part is acceptable. */
  lemma StrFieldsAcceptable(fields: Fields)
    ensures (forall k :: k in OptionalStrKeys && k in fields ==> fields[k].Str?) <==>
              && StrField(fields, "role", DefaultRole).Some?
              && StrField(fields, "committee", DefaultCommittee).Some?
              && StrField(fields, "image_name", DefaultImageName).Some?
  {
  }

  /** Replacing the value of any URL field never turns an accepted record into a rejected one, or back. */
  lemma UrlFieldsNeverReject(fields: Fields, key: string, v: Value, parse: string -> Option<HttpUrl>)
    requires key in UrlKeys
    ensures Validate(fields[key := v], parse).Some? == Validate(fields, parse).Some?
  {
    var g := fields[key := v];
    assert key != "name" && key !in OptionalStrKeys;
    forall k | k in OptionalStrKeys || k == "name"
      ensures (k in g <==> k in fields) && (k in fields ==> g[k] == fields[k])
    {
      assert k != key;
    }
    assert Acceptable(g) == Acceptable(fields);
  }

  /** Keys `TeamMember` does not declare do not affect validation. */
  lemma ExtraKeysIgnored(fields: Fields, parse: string -> Option<HttpUrl>)
    ensures Validate(fields, parse) == Validate(map k | k in fields && k in MemberKeys :: fields[k], parse)
  {
  }

  /** The keyword arguments a member dumps to (`model_dump`): strings, URLs, and `None` for absent URLs. */
  function Dump(m: Member): (fields: Fields)
    ensures fields.Keys == MemberKeys
  {
    map[
      "name" := Str(m.name), "role" := Str(m.role), "committee" := Str(m.committee),
      "image_name" := Str(m.imageName),
      "github" := UrlValue(m.github), "linkedin" := UrlValue(m.linkedin),
      "website" := UrlValue(m.website), "twitter" := UrlValue(m.twitter),
      "bluesky" := UrlValue(m.bluesky), "mastodon" := UrlValue(m.mastodon),
      "image_url" := UrlValue(m.imageUrl)]
  }

  function UrlValue(u: Option<HttpUrl>): Value {
    match u
    case Some(url) => Link(url)
    case None => Other
  }

  /** Re-validating a dumped member rebuilds the same member, whatever the URL parser. */
  lemma ValidateDumpRoundTrip(m: Member, parse: string -> Option<HttpUrl>)
    ensures Validate(Dump(m), parse) == Some(m)
  {
    var f := Dump(m);
    assert f["name"] == Str(m.name);
    assert StrField(f, "role", DefaultRole) == Some(m.role);
    assert StrField(f, "committee", DefaultCommittee) == Some(m.committee);
    assert StrField(f, "image_name", DefaultImageName) == Some(m.imageName);
    assert UrlField(f, "github", parse) == m.github;
    assert UrlField(f, "linkedin", parse) == m.linkedin;
    assert UrlField(f, "website", parse) == m.website;
    assert UrlField(f, "twitter", parse) == m.twitter;
    assert UrlField(f, "bluesky", parse) == m.bluesky;
    assert UrlField(f, "mastodon", parse) == m.mastodon;
    assert UrlField(f, "image_url", parse) == m.imageUrl;
  }
}

=== FILE: process.dfy ===
/**
 The pure helpers of `UpdateTeamPage` in team_page/process.py: the normalised
 member name used as an image file stem, and the committee display order.
 */
module Process {
  import opened Text
  import opened Models
  import opened StableSort

  // ---------------------------------------------------------------------------
  // normalized_member_name

  /** Replacing one character by another keeps the length and changes exactly the matching positions. */
  lemma {:induction false} ReplaceCharPointwise(s: string, c: char, d: char)
    ensures |ReplaceAll(s, [c], [d])| == |s|
    ensures forall i :: 0 <= i < |s| ==>
              ReplaceAll(s, [c], [d])[i] == (if s[i] == c then d else s[i])
    decreases |s|
  {
    if s != [] {
      ReplaceCharPointwise(s[1..], c, d);
      var rest := ReplaceAll(s[1..], [c], [d]);
      if StartsWith(s, [c]) {
        assert s[0] == c;
        assert ReplaceAll(s, [c], [d]) == [d] + rest;
      } else {
        assert s[0] != c;
        assert ReplaceAll(s, [c], [d]) == [s[0]] + rest;
      }
    }
  }

  /**
   `normalized_member_name`: `name.replace(" ", "_").casefold()`. The result has the
   same length as the name, no spaces and no upper-case letters; each space became
   `_` and every other character was casefolded.
   */
  function NormalizedMemberName(name: string): (r: string)
    ensures |r| == |name|
    ensures forall i :: 0 <= i < |r| ==> r[i] != ' ' && !IsUpper(r[i])
    ensures forall i :: 0 <= i < |r| ==> r[i] == (if name[i] == ' ' then '_' else Lower(name[i]))
  {
    ReplaceCharPointwise(name, ' ', '_');
    CaseFold(ReplaceAll(name, " ", "_"))
  }

  /** Normalising a normalised name changes nothing. */
  lemma NormalizedNameIdempotent(name: string)
    ensures NormalizedMemberName(NormalizedMemberName(name)) == NormalizedMemberName(name)
  {
    var n := NormalizedMemberName(name);
    assert forall i :: 0 <= i < |n| ==> NormalizedMemberName(n)[i] == n[i];
  }

  /** A normalised name is its own casefold, so it can be compared with casefolded file stems. */
  lemma NormalizedNameIsFolded(name: string)
    ensures CaseFold(NormalizedMemberName(name)) == NormalizedMemberName(name)
  {
    CaseFoldOfFolded(NormalizedMemberName(name));
  }

  // ---------------------------------------------------------------------------
  // sort_committees

  /** `order.index(x)` when `x` is listed, and `|order|` (after every listed position) when it is not. */
  function IndexOf(order: seq<string>, x: string): (i: nat)
    ensures i <= |order|
    ensures i < |order| ==> order[i] == x
    ensures forall j :: 0 <= j < i ==> order[j] != x
  {
    if order == [] then 0
    else if order[0] == x then 0
    else 1 + IndexOf(order[1..], x)
  }

  /** The sort key of a committee: its position in the configured order. */
  function RankKey(order: seq<string>): Committee -> nat {
    (c: Committee) => IndexOf(order, c.name)
  }

  lemma RankOf(order: seq<string>, c: Committee)
    ensures RankKey(order)(c) == IndexOf(order, c.name)
    ensures RankKey(order)(c) < |order| <==> c.name in order
  {
  }

  /** `[c for c in committees if c.name in sort_order]`. */
  function Listed(cs: seq<Committee>, order: seq<string>): (r: seq<Committee>)
    ensures forall i :: 0 <= i < |r| ==> r[i].name in order
  {
    if cs == [] then []
    else (if cs[0].name in order then [cs[0]] else []) + Listed(cs[1..], order)
  }

  /** `[c for c in committees if c.name not in sort_order]`. */
  function Unlisted(cs: seq<Committee>, order: seq<string>): (r: seq<Committee>)
    ensures forall i :: 0 <= i < |r| ==> r[i].name !in order
  {
    if cs == [] then []
    else (if cs[0].name !in order then [cs[0]] else []) + Unlisted(cs[1..], order)
  }

  lemma {:induction false} ListedUnlistedPartition(cs: seq<Committee>, order: seq<string>)
    ensures multiset(Listed(cs, order)) + multiset(Unlisted(cs, order)) == multiset(cs)
    decreases |cs|
  {
    if cs != [] {
      ListedUnlistedPartition(cs[1..], order);
      assert cs == [cs[0]] + cs[1..];
    }
  }

  /** No listed committee has the rank of an unlisted one. */
  lemma ListedRankBelow(cs: seq<Committee>, order: seq<string>)
    ensures KeyFilter(Listed(cs, order), RankKey(order), |order|) == []
  {
    var l := Listed(cs, order);
    forall i | 0 <= i < |l| ensures RankKey(order)(l[i]) != |order| {
      RankOf(order, l[i]);
    }
    KeyFilterEmpty(l, RankKey(order), |order|);
  }

  /** Every rank filter of the input splits into the listed part followed by the unlisted part. */
  lemma {:induction false} KeyFilterPartition(cs: seq<Committee>, order: seq<string>, k: nat)
    ensures KeyFilter(cs, RankKey(order), k)
            == KeyFilter(Listed(cs, order), RankKey(order), k) + KeyFilter(Unlisted(cs, order), RankKey(order), k)
    decreases |cs|
  {
    if cs != [] {
      var key := RankKey(order);
      KeyFilterPartition(cs[1..], order, k);
      var h := if key(cs[0]) == k then [cs[0]] else [];
      var fl, fu := KeyFilter(Listed(cs[1..], order), key, k), KeyFilter(Unlisted(cs[1..], order), key, k);
      assert KeyFilter(cs, key, k) == h + (fl + fu);
      PartitionHead(cs, order, k);
      if cs[0].name in order {
        ConcatAssoc(h, fl, fu);
      } else if h != [] {
        // An unlisted head has the rank after every listed one, so no listed committee shares it.
        RankOf(order, cs[0]);
        ListedRankBelow(cs[1..], order);
        assert fl == [];
        assert [] + (h + fu) == h + fu;
      } else {
        assert [] + (fl + fu) == fl + fu;
      }
    }
  }

  /** How the first committee enters the listed and unlisted filters. */
  lemma PartitionHead(cs: seq<Committee>, order: seq<string>, k: nat)
    requires cs != []
    ensures var key, c := RankKey(order), cs[0];
            var h := if key(c) == k then [c] else [];
            if c.name in order then
              && KeyFilter(Listed(cs, order), key, k) == h + KeyFilter(Listed(cs[1..], order), key, k)
              && KeyFilter(Unlisted(cs, order), key, k) == KeyFilter(Unlisted(cs[1..], order), key, k)
            else
              && KeyFilter(Listed(cs, order), key, k) == KeyFilter(Listed(cs[1..], order), key, k)
              && KeyFilter(Unlisted(cs, order), key, k) == h + KeyFilter(Unlisted(cs[1..], order), key, k)
  {
    var c := cs[0];
    if c.name in order {
      assert Listed(cs, order) == [c] + Listed(cs[1..], order);
      assert Unlisted(cs, order) == Unlisted(cs[1..], order) by {
        assert [] + Unlisted(cs[1..], order) == Unlisted(cs[1..], order);
      }
      KeyFilterCons(c, Listed(cs[1..], order), RankKey(order), k);
    } else {
      assert Listed(cs, order) == Listed(cs[1..], order) by {
        assert [] + Listed(cs[1..], order) == Listed(cs[1..], order);
      }
      assert Unlisted(cs, order) == [c] + Unlisted(cs[1..], order);
      KeyFilterCons(c, Unlisted(cs[1..], order), RankKey(order), k);
    }
  }

  lemma KeyFilterCons(c: Committee, s: seq<Committee>, key: Committee -> nat, k: nat)
    ensures KeyFilter([c] + s, key, k) == (if key(c) == k then [c] else []) + KeyFilter(s, key, k)
  {
    assert ([c] + s)[1..] == s;
  }

  lemma {:induction false} SortedConcat(a: seq<Committee>, b: seq<Committee>, key: Committee -> nat, bound: nat)
    requires SortedBy(a, key) && SortedBy(b, key)
    requires forall i :: 0 <= i < |a| ==> key(a[i]) < bound
    requires forall i :: 0 <= i < |b| ==> key(b[i]) == bound
    ensures SortedBy(a + b, key)
  {
  }

  /**
   `sort_committees`: the committees named in `order`, stably sorted by their
   position there, followed by the unlisted ones in input order. The output is a
   permutation of the input, ordered by rank (so every listed committee precedes
   every unlisted one), and the committees of each rank keep their input order.
   */
  function SortCommittees(cs: seq<Committee>, order: seq<string>): (r: seq<Committee>)
    ensures multiset(r) == multiset(cs)
    ensures SortedBy(r, RankKey(order))
    ensures forall i, j :: 0 <= i < j < |r| && r[j].name in order ==> r[i].name in order
    ensures forall i, j :: 0 <= i < j < |r| && r[j].name in order ==>
              IndexOf(order, r[i].name) <= IndexOf(order, r[j].name)
    ensures forall k: nat :: KeyFilter(r, RankKey(order), k) == KeyFilter(cs, RankKey(order), k)
  {
    var key := RankKey(order);
    var listed := Listed(cs, order);
    var unlisted := Unlisted(cs, order);
    var sorted := InsertionSort(listed, key);
    var r := sorted + unlisted;
    ListedUnlistedPartition(cs, order);
    InsertionSortSorted(listed, key);
    forall i | 0 <= i < |sorted| ensures key(sorted[i]) < |order| {
      assert sorted[i] in multiset(listed);
      RankOf(order, sorted[i]);
    }
    forall i | 0 <= i < |unlisted| ensures key(unlisted[i]) == |order| {
      RankOf(order, unlisted[i]);
    }
    SortedConcat(sorted, unlisted, key, |order|);
    forall k: nat ensures KeyFilter(r, key, k) == KeyFilter(cs, key, k) {
      KeyFilterAppend(sorted, unlisted, key, k);
      InsertionSortStable(listed, key, k);
      KeyFilterPartition(cs, order, k);
    }
    forall i, j | 0 <= i < j < |r| && r[j].name in order
      ensures r[i].name in order && IndexOf(order, r[i].name) <= IndexOf(order, r[j].name)
    {
      RankOf(order, r[i]);
      RankOf(order, r[j]);
    }
    r
  }

  /**
   Any ordering that is sorted by rank and keeps each rank's input order is the one
   `sort_committees` produces: Python's stable `sorted` and this model agree.
   */
  lemma SortCommitteesUnique(cs: seq<Committee>, order: seq<string>, s: seq<Committee>)
    requires SortedBy(s, RankKey(order))
    requires forall k: nat :: KeyFilter(s, RankKey(order), k) == KeyFilter(cs, RankKey(order), k)
    ensures s == SortCommittees(cs, order)
  {
    StableSortUnique(s, SortCommittees(cs, order), RankKey(order));
  }

  /** Sorting twice is sorting once. */
  lemma SortCommitteesIdempotent(cs: seq<Committee>, order: seq<string>)
    ensures SortCommittees(SortCommittees(cs, order), order) == SortCommittees(cs, order)
  {
    var r := SortCommittees(cs, order);
    SortCommitteesUnique(r, order, r);
  }
}

=== FILE: roster.dfy ===
/**
 The record loop of `sheet_to_json` in team_page/process.py: from spreadsheet rows
 to the `TeamDataBag` of committees, with each included row validated into a
 member, its picture handled, and the member appended to its committee's list.

 The spreadsheet read and the column renaming are not modelled; the input is the
 list of records they produce. The order in which line 60 iterates its set of
 committee names is arbitrary in Python, so it is a parameter here (`keyOrder`).
 */
module Roster {
  import opened Wrappers
  import opened Text
  import opened Models
  import opened Process
  import opened Images

  /** One spreadsheet record after renaming and `fillna("")`: column name to cell text. */
  type Row = map<string, string>

  /** The configuration values `sheet_to_json` reads. */
  datatype Config = Config(sortOrder: seq<string>, teamImages: string, defaultImage: string)

  /** The exceptions that end `sheet_to_json`. */
  datatype RunError =
    | MissingColumn(column: string)   // `record[column]` raised KeyError
    | NoCommittee(committee: string)  // `members[committee]` raised KeyError
    | ImageFailed(error: ImageError)  // `download_member_image` raised

  /** The loop state: each committee's members so far, and the image directory. */
  datatype State = State(buckets: map<string, seq<Member>>, dir: ImageDir)

  /** A finished run: the document and the image directory with the pictures it saved. */
  datatype Run = Run(bag: DataBag, dir: ImageDir)

  const Affirmative := "yes"
  const ChairRole := "Chair"

  /** The committees line 60 creates empty lists for: every non-empty `committee` cell, included row or not. */
  function CommitteeKeys(rows: seq<Row>): (keys: set<string>)
    ensures "" !in keys
    ensures forall i :: 0 <= i < |rows| && "committee" in rows[i] && rows[i]["committee"] != "" ==>
              rows[i]["committee"] in keys
  {
    set i | 0 <= i < |rows| && "committee" in rows[i] && rows[i]["committee"] != "" :: rows[i]["committee"]
  }

  /** Every committee key comes from some row's `committee` cell. */
  lemma CommitteeKeyHasRow(rows: seq<Row>, k: string)
    requires k in CommitteeKeys(rows)
    ensures exists i :: 0 <= i < |rows| && "committee" in rows[i] && rows[i]["committee"] == k
  {
  }

  /** A row is processed when its `ignore` cell casefolds to "yes" (the column name reads backwards). */
  predicate Included(row: Row)
    requires "ignore" in row
  {
    CaseFold(row["ignore"]) == Affirmative
  }

  /** The role line 68 writes into the record. */
  function RoleOf(row: Row): (role: string)
    requires "chair" in row
    ensures role == ChairRole <==> CaseFold(row["chair"]) == Affirmative
    ensures role != ChairRole ==> role == ""
  {
    if CaseFold(row["chair"]) == Affirmative then ChairRole else ""
  }

  /** The keyword arguments of `TeamMember(**record)` once the role is set. */
  function RecordFields(row: Row): Fields
    requires "chair" in row
  {
    (map k | k in row :: Str(row[k]))["role" := Str(RoleOf(row))]
  }

  /** `record.get("committee", "other")`. */
  function BucketKey(row: Row): (key: string)
    ensures "committee" in row ==> key == row["committee"]
    ensures "committee" !in row ==> key == DefaultCommittee
  {
    if "committee" in row then row["committee"] else DefaultCommittee
  }

  /** The columns a row must have for the loop to get past it without a KeyError. */
  predicate RowShaped(row: Row) {
    "name" in row && "ignore" in row && (Included(row) ==> "chair" in row)
  }

  /** Every row has the columns the loop reads from it. */
  predicate AllShaped(rows: seq<Row>) {
    forall i :: 0 <= i < |rows| ==> RowShaped(rows[i])
  }

  lemma AllShapedCons(rows: seq<Row>)
    requires rows != []
    ensures AllShaped(rows) <==> RowShaped(rows[0]) && AllShaped(rows[1..])
  {
    assert forall i :: 0 < i < |rows| ==> rows[i] == rows[1..][i - 1];
  }

  /** The member a row contributes: an included row that validates. */
  function RowMember(row: Row, parse: string -> Option<HttpUrl>): Option<Member> {
    if "ignore" in row && "chair" in row && Included(row) then Validate(RecordFields(row), parse) else None
  }

  /** The members the rows contribute, in row order. */
  function Accepted(rows: seq<Row>, parse: string -> Option<HttpUrl>): (ms: seq<Member>)
    ensures |ms| <= |rows|
  {
    if rows == [] then []
    else
      (match RowMember(rows[0], parse) case Some(m) => [m] case None => []) + Accepted(rows[1..], parse)
  }

  /** Every member's committee is one of `names`. */
  predicate AllFiled(ms: seq<Member>, names: set<string>) {
    forall j :: 0 <= j < |ms| ==> ms[j].committee in names
  }

  lemma AllFiledCons(m: Member, ms: seq<Member>, names: set<string>)
    ensures AllFiled([m] + ms, names) <==> m.committee in names && AllFiled(ms, names)
  {
    var s := [m] + ms;
    assert s[0] == m;
    assert forall j :: 0 <= j < |ms| ==> s[j + 1] == ms[j];
    assert forall j :: 0 < j < |s| ==> s[j] == ms[j - 1];
  }

  /** The members of one committee, in order. */
  function MembersOf(ms: seq<Member>, committee: string): (r: seq<Member>)
    ensures forall i :: 0 <= i < |r| ==> r[i].committee == committee
  {
    if ms == [] then []
    else (if ms[0].committee == committee then [ms[0]] else []) + MembersOf(ms[1..], committee)
  }

  /**
   The member of an included row: named by its `name` cell, "Chair" exactly when its
   `chair` cell casefolds to "yes", filed under the committee `record.get("committee", "other")`.
   */
  lemma RowMemberFields(row: Row, parse: string -> Option<HttpUrl>)
    requires RowMember(row, parse).Some?
    ensures "ignore" in row && Included(row) && "chair" in row
    ensures var m := RowMember(row, parse).value;
            && m.name == row["name"]
            && (m.role == ChairRole <==> CaseFold(row["chair"]) == Affirmative)
            && (m.role != ChairRole ==> m.role == "")
            && m.committee == BucketKey(row)
  {
    var f := RecordFields(row);
    assert "role" in f && f["role"] == Str(RoleOf(row));
    if "committee" in row {
      assert f["committee"] == Str(row["committee"]);
    } else {
      assert "committee" !in f;
    }
  }

  /**
   String cells always satisfy `TeamMember`: an included row with a `name` column is
   never skipped by the ValidationError branch.
   */
  lemma StringRowsValidate(row: Row, parse: string -> Option<HttpUrl>)
    requires RowShaped(row) && Included(row)
    ensures RowMember(row, parse).Some?
  {
    var f := RecordFields(row);
    assert "name" in f && f["name"].Str?;
    assert forall k :: k in f ==> f[k].Str?;
  }

  /** One iteration of the record loop. */
  function ProcessRow(row: Row, st: State, parse: string -> Option<HttpUrl>, net: Network, lookup: ImageLookup)
    : (r: Result<State, RunError>)
    ensures r.Ok? ==> RowShaped(row) && r.value.buckets.Keys == st.buckets.Keys
    ensures r.Ok? && RowMember(row, parse).None? ==> r.value == st
    ensures r.Ok? && RowMember(row, parse).Some? ==>
              var m := RowMember(row, parse).value;
              var outcome := DownloadMemberImage(m, st.dir, net, lookup);
              && !outcome.Raised?
              && m.committee in st.buckets
              && r.value.buckets == st.buckets[m.committee := st.buckets[m.committee] + [m]]
              && r.value.dir == DirAfter(st.dir, outcome)
  {
    if "name" !in row then Err(MissingColumn("name"))
    else if "ignore" !in row then Err(MissingColumn("ignore"))
    else if !Included(row) then Ok(st)
    else if "chair" !in row then Err(MissingColumn("chair"))
    else
      match Validate(RecordFields(row), parse)
      case None => Ok(st)
      case Some(m) =>
        var outcome := DownloadMemberImage(m, st.dir, net, lookup);
        if outcome.Raised? then Err(ImageFailed(outcome.error))
        else
          var key := BucketKey(row);
          if key !in st.buckets then Err(NoCommittee(key))
          else
            RowMemberFields(row, parse);
            Ok(State(st.buckets[key := st.buckets[key] + [m]], DirAfter(st.dir, outcome)))
  }

  /**
   The path of a row that is kept: its member goes to the end of its committee's
   list, and a picture it saved joins the image directory.
   */
  lemma RowAccepted(row: Row, st: State, parse: string -> Option<HttpUrl>, net: Network, lookup: ImageLookup)
    requires RowMember(row, parse).Some? && "name" in row
    requires var outcome := DownloadMemberImage(RowMember(row, parse).value, st.dir, net, lookup);
             !outcome.Raised? && BucketKey(row) in st.buckets
    ensures var m := RowMember(row, parse).value;
            var outcome := DownloadMemberImage(m, st.dir, net, lookup);
            ProcessRow(row, st, parse, net, lookup)
            == Ok(State(st.buckets[BucketKey(row) := st.buckets[BucketKey(row)] + [m]], DirAfter(st.dir, outcome)))
  {
  }

  /** The record loop: rows in order, stopping at the first exception. */
  function ProcessRows(rows: seq<Row>, st: State, parse: string -> Option<HttpUrl>, net: Network, lookup: ImageLookup)
    : (r: Result<State, RunError>)
    ensures r.Ok? ==> r.value.buckets.Keys == st.buckets.Keys
    decreases |rows|
  {
    if rows == [] then Ok(st)
    else
      match ProcessRow(rows[0], st, parse, net, lookup)
      case Err(e) => Err(e)
      case Ok(next) => ProcessRows(rows[1..], next, parse, net, lookup)
  }

  lemma MembersOfCons(m: Member, ms: seq<Member>, k: string)
    ensures MembersOf([m] + ms, k) == (if m.committee == k then [m] else []) + MembersOf(ms, k)
  {
    assert ([m] + ms)[1..] == ms;
  }

  /**
   After a completed loop every row had the columns it needed, every accepted member
   found its committee's list, and each list grew by exactly that committee's accepted
   members, in row order.
   */
  lemma {:induction false} ProcessRowsBuckets(
    rows: seq<Row>, st: State, parse: string -> Option<HttpUrl>, net: Network, lookup: ImageLookup)
    requires ProcessRows(rows, st, parse, net, lookup).Ok?
    ensures AllShaped(rows)
    ensures AllFiled(Accepted(rows, parse), st.buckets.Keys)
    ensures var fin := ProcessRows(rows, st, parse, net, lookup).value;
            forall k :: k in st.buckets ==> fin.buckets[k] == st.buckets[k] + MembersOf(Accepted(rows, parse), k)
    decreases |rows|
  {
    var fin := ProcessRows(rows, st, parse, net, lookup).value;
    if rows == [] {
      forall k | k in st.buckets ensures fin.buckets[k] == st.buckets[k] + MembersOf(Accepted(rows, parse), k) {
        assert st.buckets[k] + [] == st.buckets[k];
      }
    } else {
      var next := ProcessRow(rows[0], st, parse, net, lookup).value;
      ProcessRowsBuckets(rows[1..], next, parse, net, lookup);
      AllShapedCons(rows);
      AcceptedCons(rows, parse);
      if RowMember(rows[0], parse).Some? {
        AllFiledCons(RowMember(rows[0], parse).value, Accepted(rows[1..], parse), st.buckets.Keys);
      }
      BucketsStep(rows[0], st, next, parse, net, lookup, Accepted(rows[1..], parse), fin);
    }
  }

  /** How the first row enters `Accepted`. */
  lemma AcceptedCons(rows: seq<Row>, parse: string -> Option<HttpUrl>)
    requires rows != []
    ensures RowMember(rows[0], parse).None? ==> Accepted(rows, parse) == Accepted(rows[1..], parse)
    ensures RowMember(rows[0], parse).Some? ==>
              Accepted(rows, parse) == [RowMember(rows[0], parse).value] + Accepted(rows[1..], parse)
  {
    var rest := Accepted(rows[1..], parse);
    var head := match RowMember(rows[0], parse) case Some(m) => [m] case None => [];
    assert Accepted(rows, parse) == head + rest;
    if RowMember(rows[0], parse).None? {
      assert head == [];
      assert [] + rest == rest;
    }
  }

  /** One row's step composed with what the remaining rows add. */
  lemma BucketsStep(
    row: Row, st: State, next: State, parse: string -> Option<HttpUrl>, net: Network, lookup: ImageLookup,
    acc: seq<Member>, fin: State)
    requires ProcessRow(row, st, parse, net, lookup) == Ok(next)
    requires next.buckets.Keys == st.buckets.Keys && fin.buckets.Keys == st.buckets.Keys
    requires forall k :: k in next.buckets ==> fin.buckets[k] == next.buckets[k] + MembersOf(acc, k)
    ensures RowMember(row, parse).None? ==>
              forall k :: k in st.buckets ==> fin.buckets[k] == st.buckets[k] + MembersOf(acc, k)
    ensures RowMember(row, parse).Some? ==>
              var all := [RowMember(row, parse).value] + acc;
              forall k :: k in st.buckets ==> fin.buckets[k] == st.buckets[k] + MembersOf(all, k)
  {
    if RowMember(row, parse).Some? {
      var m := RowMember(row, parse).value;
      assert m.committee in st.buckets;
      assert next.buckets == st.buckets[m.committee := st.buckets[m.committee] + [m]];
      forall k | k in st.buckets ensures fin.buckets[k] == st.buckets[k] + MembersOf([m] + acc, k) {
        GrowBucket(m, acc, k, st.buckets, next.buckets, fin.buckets[k]);
      }
    }
  }

  lemma GrowBucket(
    m: Member, acc: seq<Member>, k: string, before: map<string, seq<Member>>, after: map<string, seq<Member>>,
    final: seq<Member>)
    requires m.committee in before && k in before
    requires after == before[m.committee := before[m.committee] + [m]]
    requires final == after[k] + MembersOf(acc, k)
    ensures final == before[k] + MembersOf([m] + acc, k)
  {
    MembersOfCons(m, acc, k);
    if m.committee == k {
      assert after[k] == before[k] + [m];
      ConcatAssoc(before[k], [m], MembersOf(acc, k));
    } else {
      assert after[k] == before[k];
      assert [] + MembersOf(acc, k) == MembersOf(acc, k);
    }
  }

  /** The HEAD request always answers with an image content type. */
  ghost predicate ServesImages(net: Network) {
    forall url :: net.head(url).Headers? && net.head(url).contentType.Some?
                  && IsImageType(Strip(net.head(url).contentType.value))
  }

  /**
   Conversely, with image URLs that serve images, the loop completes whenever every
   row has its columns and every accepted member has a committee list to go in.
   */
  lemma {:induction false} ProcessRowsCompletes(
    rows: seq<Row>, st: State, parse: string -> Option<HttpUrl>, net: Network)
    requires AllShaped(rows)
    requires AllFiled(Accepted(rows, parse), st.buckets.Keys)
    requires ServesImages(net)
    ensures ProcessRows(rows, st, parse, net, ImageUrlField).Ok?
    decreases |rows|
  {
    if rows != [] {
      var row := rows[0];
      AllShapedCons(rows);
      AcceptedCons(rows, parse);
      var acc := Accepted(rows[1..], parse);
      if RowMember(row, parse).Some? {
        AllFiledCons(RowMember(row, parse).value, acc, st.buckets.Keys);
      }
      RowCompletes(row, st, parse, net);
      var next := ProcessRow(row, st, parse, net, ImageUrlField).value;
      assert next.buckets.Keys == st.buckets.Keys;
      ProcessRowsCompletes(rows[1..], next, parse, net);
    }
  }

  /** A shaped row whose member has a list to go in passes when images are served. */
  lemma RowCompletes(row: Row, st: State, parse: string -> Option<HttpUrl>, net: Network)
    requires RowShaped(row) && ServesImages(net)
    requires RowMember(row, parse).Some? ==> RowMember(row, parse).value.committee in st.buckets
    ensures ProcessRow(row, st, parse, net, ImageUrlField).Ok?
  {
    if RowMember(row, parse).Some? {
      var m := RowMember(row, parse).value;
      RowMemberFields(row, parse);
      var p := PlanImage(m.name, m.imageUrl, st.dir);
      if p.Fetch? {
        assert net.head(p.probeUrl).Headers?;
      }
      assert !DownloadMemberImage(m, st.dir, net, ImageUrlField).Raised?;
    }
  }

  /** Each name of `keys` exactly once. */
  predicate Enumerates(keys: seq<string>, names: set<string>) {
    && (forall i, j :: 0 <= i < j < |keys| ==> keys[i] != keys[j])
    && (set i | 0 <= i < |keys| :: keys[i]) == names
  }

  /** The empty committee lists of line 60. */
  function InitialBuckets(rows: seq<Row>): (b: map<string, seq<Member>>)
    ensures b.Keys == CommitteeKeys(rows)
    ensures forall k :: k in b ==> b[k] == []
  {
    map k | k in CommitteeKeys(rows) :: []
  }

  /**
   The committees the document should list, before sorting: one per committee name,
   in `keyOrder`, each holding that committee's accepted members in row order.
   */
  function ExpectedCommittees(rows: seq<Row>, keyOrder: seq<string>, parse: string -> Option<HttpUrl>): seq<Committee> {
    seq(|keyOrder|, i requires 0 <= i < |keyOrder| =>
      Committee(keyOrder[i], "", MembersOf(Accepted(rows, parse), keyOrder[i])))
  }

  /**
   `sheet_to_json`, reading the member's picture through `lookup`. A completed run
   publishes every committee named in the sheet (even one left without members),
   each holding exactly its accepted members in row order, in `sort_committees` order.
   */
  function SheetToJsonWith(
    rows: seq<Row>, keyOrder: seq<string>, cfg: Config, parse: string -> Option<HttpUrl>,
    dir: ImageDir, net: Network, lookup: ImageLookup)
    : (r: Result<Run, RunError>)
    requires Enumerates(keyOrder, CommitteeKeys(rows))
    ensures var loop := ProcessRows(rows, State(InitialBuckets(rows), dir), parse, net, lookup);
            && (r.Ok? <==> loop.Ok?)
            && (r.Ok? ==> r.value.dir == loop.value.dir)
            && (r.Err? ==> r.error == loop.error)
    ensures r.Ok? ==> AllShaped(rows) && AllFiled(Accepted(rows, parse), CommitteeKeys(rows))
    ensures r.Ok? ==>
              r.value.bag == DataBag(cfg.teamImages, cfg.defaultImage,
                                     SortCommittees(ExpectedCommittees(rows, keyOrder, parse), cfg.sortOrder))
  {
    var initial := State(InitialBuckets(rows), dir);
    match ProcessRows(rows, initial, parse, net, lookup)
    case Err(e) => Err(e)
    case Ok(fin) =>
      LoopPublishesExpected(rows, keyOrder, parse, dir, net, lookup);
      Ok(Run(DataBag(cfg.teamImages, cfg.defaultImage, SortCommittees(Published(keyOrder, fin.buckets), cfg.sortOrder)), fin.dir))
  }

  /** `[Committee(name=key, members=...) for key, members in committees.items()]`, in `keyOrder`. */
  function Published(keyOrder: seq<string>, buckets: map<string, seq<Member>>): (cs: seq<Committee>)
    requires forall i :: 0 <= i < |keyOrder| ==> keyOrder[i] in buckets
    ensures |cs| == |keyOrder|
    ensures forall i :: 0 <= i < |cs| ==>
              cs[i].name == keyOrder[i] && cs[i].comment == "" && cs[i].members == buckets[keyOrder[i]]
  {
    seq(|keyOrder|, i requires 0 <= i < |keyOrder| => Committee(keyOrder[i], "", buckets[keyOrder[i]]))
  }

  /** After a completed loop every listed committee holds exactly its accepted members. */
  lemma LoopPublishesExpected(
    rows: seq<Row>, keyOrder: seq<string>, parse: string -> Option<HttpUrl>,
    dir: ImageDir, net: Network, lookup: ImageLookup)
    requires Enumerates(keyOrder, CommitteeKeys(rows))
    requires ProcessRows(rows, State(InitialBuckets(rows), dir), parse, net, lookup).Ok?
    ensures var fin := ProcessRows(rows, State(InitialBuckets(rows), dir), parse, net, lookup).value;
            && (forall i :: 0 <= i < |keyOrder| ==> keyOrder[i] in fin.buckets)
            && Published(keyOrder, fin.buckets) == ExpectedCommittees(rows, keyOrder, parse)
    ensures AllShaped(rows) && AllFiled(Accepted(rows, parse), CommitteeKeys(rows))
  {
    var initial := State(InitialBuckets(rows), dir);
    var fin := ProcessRows(rows, initial, parse, net, lookup).value;
    var acc := Accepted(rows, parse);
    ProcessRowsBuckets(rows, initial, parse, net, lookup);
    assert forall i :: 0 <= i < |keyOrder| ==> keyOrder[i] in initial.buckets by {
      assert forall i :: 0 <= i < |keyOrder| ==> keyOrder[i] in CommitteeKeys(rows);
    }
    var expected := ExpectedCommittees(rows, keyOrder, parse);
    forall i | 0 <= i < |keyOrder| ensures Published(keyOrder, fin.buckets)[i] == expected[i] {
      var k := keyOrder[i];
      assert initial.buckets[k] == [];
      assert fin.buckets[k] == [] + MembersOf(acc, k);
      assert [] + MembersOf(acc, k) == MembersOf(acc, k);
    }
  }

  /** `sheet_to_json` with the picture URL read from the `image_url` field `TeamMember` declares. */
  function SheetToJson(
    rows: seq<Row>, keyOrder: seq<string>, cfg: Config, parse: string -> Option<HttpUrl>,
    dir: ImageDir, net: Network)
    : (r: Result<Run, RunError>)
    requires Enumerates(keyOrder, CommitteeKeys(rows))
    ensures var loop := ProcessRows(rows, State(InitialBuckets(rows), dir), parse, net, ImageUrlField);
            && (r.Ok? <==> loop.Ok?)
            && (r.Ok? ==> r.value.dir == loop.value.dir)
            && (r.Err? ==> r.error == loop.error)
    ensures r.Ok? ==> AllShaped(rows) && AllFiled(Accepted(rows, parse), CommitteeKeys(rows))
    ensures r.Ok? ==>
              r.value.bag == DataBag(cfg.teamImages, cfg.defaultImage,
                                     SortCommittees(ExpectedCommittees(rows, keyOrder, parse), cfg.sortOrder))
  {
    SheetToJsonWith(rows, keyOrder, cfg, parse, dir, net, ImageUrlField)
  }

  /** `sheet_to_json` as written: line 101 reads `member.image_file`, which `TeamMember` does not have. */
  function SheetToJsonAsWritten(
    rows: seq<Row>, keyOrder: seq<string>, cfg: Config, parse: string -> Option<HttpUrl>,
    dir: ImageDir, net: Network)
    : (r: Result<Run, RunError>)
    requires Enumerates(keyOrder, CommitteeKeys(rows))
    ensures r.Ok? ==>
              r.value.bag.types == SortCommittees(ExpectedCommittees(rows, keyOrder, parse), cfg.sortOrder)
  {
    SheetToJsonWith(rows, keyOrder, cfg, parse, dir, net, ImageFileAttribute)
  }

  /**
   A run completes exactly when every row has its columns and every accepted member's
   committee is one of the sheet's non-empty committee names, provided the picture
   URLs serve images.
   */
  lemma SheetToJsonCompletes(
    rows: seq<Row>, keyOrder: seq<string>, cfg: Config, parse: string -> Option<HttpUrl>,
    dir: ImageDir, net: Network)
    requires Enumerates(keyOrder, CommitteeKeys(rows))
    requires ServesImages(net)
    ensures SheetToJson(rows, keyOrder, cfg, parse, dir, net).Ok? <==>
              AllShaped(rows) && AllFiled(Accepted(rows, parse), CommitteeKeys(rows))
  {
    var initial := State(InitialBuckets(rows), dir);
    assert initial.buckets.Keys == CommitteeKeys(rows);
    if ProcessRows(rows, initial, parse, net, ImageUrlField).Ok? {
      ProcessRowsBuckets(rows, initial, parse, net, ImageUrlField);
    }
    if AllShaped(rows) && AllFiled(Accepted(rows, parse), CommitteeKeys(rows)) {
      ProcessRowsCompletes(rows, initial, parse, net);
    }
  }

  /** Every published member sits in the committee its `committee` field names. */
  lemma MembersBelongToTheirCommittee(
    rows: seq<Row>, keyOrder: seq<string>, cfg: Config, parse: string -> Option<HttpUrl>,
    dir: ImageDir, net: Network, c: Committee, m: Member)
    requires Enumerates(keyOrder, CommitteeKeys(rows))
    requires SheetToJson(rows, keyOrder, cfg, parse, dir, net).Ok?
    requires c in SheetToJson(rows, keyOrder, cfg, parse, dir, net).value.bag.types
    requires m in c.members
    ensures m.committee == c.name
    ensures c.name in CommitteeKeys(rows) && c.comment == ""
  {
    assert c in SortCommittees(ExpectedCommittees(rows, keyOrder, parse), cfg.sortOrder) by {
      var r := SheetToJson(rows, keyOrder, cfg, parse, dir, net);
      assert r.value.bag.types == SortCommittees(ExpectedCommittees(rows, keyOrder, parse), cfg.sortOrder);
    }
    SortedMembersBelong(rows, keyOrder, parse, cfg.sortOrder, c, m);
    EnumeratedName(keyOrder, CommitteeKeys(rows), c.name);
  }

  lemma SortedMembersBelong(
    rows: seq<Row>, keyOrder: seq<string>, parse: string -> Option<HttpUrl>, order: seq<string>,
    c: Committee, m: Member)
    requires c in SortCommittees(ExpectedCommittees(rows, keyOrder, parse), order) && m in c.members
    ensures m.committee == c.name && c.name in keyOrder && c.comment == ""
  {
    var expected := ExpectedCommittees(rows, keyOrder, parse);
    assert c in expected by {
      var sorted := SortCommittees(expected, order);
      assert c in multiset(sorted) && multiset(sorted) == multiset(expected);
    }
    var i :| 0 <= i < |expected| && expected[i] == c;
    assert c == Committee(keyOrder[i], "", MembersOf(Accepted(rows, parse), keyOrder[i]));
  }

  lemma EnumeratedName(keys: seq<string>, names: set<string>, x: string)
    requires Enumerates(keys, names) && x in keys
    ensures x in names
  {
    var i :| 0 <= i < |keys| && keys[i] == x;
    assert x in (set i | 0 <= i < |keys| :: keys[i]);
  }

  /** Accepted members come from included rows. */
  lemma {:induction false} AcceptedFromIncludedRows(rows: seq<Row>, parse: string -> Option<HttpUrl>, i: nat)
    requires i < |rows| && RowMember(rows[i], parse).Some?
    ensures RowMember(rows[i], parse).value in Accepted(rows, parse)
    decreases i
  {
    AcceptedCons(rows, parse);
    if i > 0 {
      assert rows[i] == rows[1..][i - 1];
      AcceptedFromIncludedRows(rows[1..], parse, i - 1);
    }
  }

  /** An included row with an empty `committee` cell has no list to go in, so the run fails. */
  lemma EmptyCommitteeAborts(
    rows: seq<Row>, keyOrder: seq<string>, cfg: Config, parse: string -> Option<HttpUrl>,
    dir: ImageDir, net: Network, i: nat)
    requires Enumerates(keyOrder, CommitteeKeys(rows))
    requires i < |rows| && RowShaped(rows[i]) && Included(rows[i])
    requires "committee" in rows[i] && rows[i]["committee"] == ""
    ensures SheetToJson(rows, keyOrder, cfg, parse, dir, net).Err?
  {
    StringRowsValidate(rows[i], parse);
    RowMemberFields(rows[i], parse);
    var m := RowMember(rows[i], parse).value;
    AcceptedFromIncludedRows(rows, parse, i);
    var acc := Accepted(rows, parse);
    var j :| 0 <= j < |acc| && acc[j] == m;
    assert m.committee !in CommitteeKeys(rows);
    assert !AllFiled(acc, CommitteeKeys(rows));
  }

  /** As written, a loop that reaches an accepted member stops at it. */
  lemma {:induction false} AsWrittenStopsAtFirstMember(
    rows: seq<Row>, st: State, parse: string -> Option<HttpUrl>, net: Network)
    requires ProcessRows(rows, st, parse, net, ImageFileAttribute).Ok?
    ensures Accepted(rows, parse) == []
    decreases |rows|
  {
    if rows != [] {
      var r := ProcessRow(rows[0], st, parse, net, ImageFileAttribute);
      assert r.Ok?;
      assert RowMember(rows[0], parse).None?;
      AsWrittenStopsAtFirstMember(rows[1..], r.value, parse, net);
      assert Accepted(rows, parse) == [] + [];
    }
  }

  /** As written, a completed run never publishes a member. */
  lemma AsWrittenPublishesNoMember(
    rows: seq<Row>, keyOrder: seq<string>, cfg: Config, parse: string -> Option<HttpUrl>,
    dir: ImageDir, net: Network)
    requires Enumerates(keyOrder, CommitteeKeys(rows))
    requires SheetToJsonAsWritten(rows, keyOrder, cfg, parse, dir, net).Ok?
    ensures Accepted(rows, parse) == []
  {
    AsWrittenStopsAtFirstMember(rows, State(InitialBuckets(rows), dir), parse, net);
  }

  // ---------------------------------------------------------------------------
  // Worked examples
  //
  // Only `JaneDoeRun`, `JaneDoeRunAsWritten` and `CommitteeWithoutMembersPublished`
  // state something about `sheet_to_json`. The other lemmas here are proof helpers:
  // single concrete facts about the example data, kept apart so that each proof
  // stays small.

  const JaneUrl := HttpUrl("https://example.com/photo.jpg", "example.com", Some("/photo.jpg"))

  /** An included row: Jane Doe, chair of the Board, with a picture URL. */
  const JaneRow: Row := map[
    "name" := "Jane Doe", "committee" := "Board", "chair" := "yes", "ignore" := "yes",
    "image_url" := "https://example.com/photo.jpg"]

  const Jane := Member("Jane Doe", ChairRole, "Board", "", None, None, None, None, None, None, Some(JaneUrl))

  /** An excluded row: it needs no `chair` column, yet its committee still gets a list. */
  const SamRow: Row := map["name" := "Sam", "ignore" := "no", "committee" := "Board"]

  lemma BoardIsTheOnlyCommittee(row: Row)
    requires "committee" in row && row["committee"] == "Board"
    ensures CommitteeKeys([row]) == {"Board"}
    ensures Enumerates(["Board"], CommitteeKeys([row]))
  {
    assert [row][0] == row;
    assert "Board" in CommitteeKeys([row]);
    assert (set i | 0 <= i < |["Board"]| :: ["Board"][i]) == {"Board"} by {
      assert ["Board"][0] == "Board";
    }
  }

  const JaneFields: Fields := map[
    "name" := Str("Jane Doe"), "committee" := Str("Board"), "chair" := Str("yes"), "ignore" := Str("yes"),
    "image_url" := Str("https://example.com/photo.jpg"), "role" := Str(ChairRole)]

  lemma JaneRecordFields()
    ensures Included(JaneRow) && RecordFields(JaneRow) == JaneFields
  {
    CaseFoldOfFolded("yes");
    assert RoleOf(JaneRow) == ChairRole;
    var f := RecordFields(JaneRow);
    assert f.Keys == JaneFields.Keys;
  }

  lemma JaneValidates(parse: string -> Option<HttpUrl>)
    requires parse(JaneUrl.text) == Some(JaneUrl)
    ensures Validate(JaneFields, parse) == Some(Jane)
  {
    JaneStrFields();
    JaneUrlFields(parse);
  }

  lemma JaneStrFields()
    ensures JaneFields["name"] == Str("Jane Doe")
    ensures StrField(JaneFields, "role", DefaultRole) == Some(ChairRole)
    ensures StrField(JaneFields, "committee", DefaultCommittee) == Some("Board")
    ensures StrField(JaneFields, "image_name", DefaultImageName) == Some("")
  {
  }

  lemma JaneUrlFields(parse: string -> Option<HttpUrl>)
    requires parse(JaneUrl.text) == Some(JaneUrl)
    ensures UrlField(JaneFields, "github", parse) == None
    ensures UrlField(JaneFields, "linkedin", parse) == None
    ensures UrlField(JaneFields, "website", parse) == None
    ensures UrlField(JaneFields, "twitter", parse) == None
    ensures UrlField(JaneFields, "bluesky", parse) == None
    ensures UrlField(JaneFields, "mastodon", parse) == None
    ensures UrlField(JaneFields, "image_url", parse) == Some(JaneUrl)
  {
    JaneNoLinks(parse);
    JaneImageUrl(parse);
  }

  /** No link key is a key of Jane's record: their first letters already differ. */
  lemma JaneNoLinks(parse: string -> Option<HttpUrl>)
    ensures forall k :: k in UrlKeys && k != "image_url" ==> UrlField(JaneFields, k, parse) == None
  {
    JaneKeyInitials();
    forall k | k in UrlKeys && k != "image_url" ensures k !in JaneFields {
      assert k != [] && k[0] in "glwtbm";
    }
  }

  /** Proof helper: the first letters of the keys of Jane's record. */
  lemma JaneKeyInitials()
    ensures forall k :: k in JaneFields ==> k != [] && k[0] in "ncir"
  {
    JaneFieldKeys();
  }

  lemma JaneImageUrl(parse: string -> Option<HttpUrl>)
    requires parse(JaneUrl.text) == Some(JaneUrl)
    ensures UrlField(JaneFields, "image_url", parse) == Some(JaneUrl)
  {
    assert JaneFields["image_url"] == Str(JaneUrl.text);
    JaneUrlUnpadded();
  }

  lemma JaneUrlUnpadded()
    ensures Strip(JaneUrl.text) == JaneUrl.text
  {
    var t := JaneUrl.text;
    assert t[0] == 'h' && t[|t| - 1] == 'g';
  }

  /** Proof helper: the keys of Jane's record. */
  lemma JaneFieldKeys()
    ensures JaneFields.Keys == {"name", "committee", "chair", "ignore", "image_url", "role"}
  {
  }

  lemma JaneRowMember(parse: string -> Option<HttpUrl>)
    requires parse(JaneUrl.text) == Some(JaneUrl)
    ensures RowMember(JaneRow, parse) == Some(Jane)
  {
    JaneRecordFields();
    JaneValidates(parse);
  }

  lemma JanePlan()
    ensures PlanImage(Jane.name, Jane.imageUrl, ImageDir({}, {})) == Fetch(JaneUrl.text, JaneUrl.text, "jane_doe")
  {
    JaneDoeNormalized();
    PhotoPathFile(JaneUrl);
    assert "photo.jpg" != "";
    assert ExistingStems(ImageDir({}, {})) == {};
  }

  lemma JpegIsImage()
    ensures Strip("image/jpeg") == "image/jpeg" && IsImageType("image/jpeg")
  {
    assert "image/jpeg"[..6] == "image/";
  }

  lemma JpegExtension()
    ensures Extension("image/jpeg") == "jpeg"
  {
    assert "image/jpeg" == "image" + ['/'] + "jpeg";
    assert !Contains("jpeg", '/');
    AfterLastSeparator("image", "jpeg", '/');
  }

  /** Proof helper: the name Jane's picture is stored under, spelled out. */
  lemma JpegFileName()
    ensures "jane_doe" + "." + "jpeg" == "jane_doe.jpeg"
  {
  }

  lemma JaneImageSaved(net: Network)
    requires net.head(JaneUrl.text) == Headers(Some("image/jpeg")) && net.get(JaneUrl.text)
    ensures DownloadMemberImage(Jane, ImageDir({}, {}), net, ImageUrlField) == Saved("jane_doe.jpeg")
  {
    var r := DownloadMemberImage(Jane, ImageDir({}, {}), net, ImageUrlField);
    assert r == DownloadUrl(JaneUrl.text, JaneUrl.text, "jane_doe", net) by {
      JanePlan();
    }
    JpegIsImage();
    JpegExtension();
    DownloadUrlSaves(JaneUrl.text, JaneUrl.text, "jane_doe", net, "image/jpeg");
    JpegFileName();
  }

  /** A one-row sheet is handled by a single `ProcessRow`. */
  lemma ProcessOneRow(row: Row, st: State, parse: string -> Option<HttpUrl>, net: Network, lookup: ImageLookup)
    ensures ProcessRows([row], st, parse, net, lookup) == ProcessRow(row, st, parse, net, lookup)
  {
    assert [row][0] == row && [row][1..] == [];
  }

  lemma JaneRowShape()
    ensures "name" in JaneRow && "committee" in JaneRow && JaneRow["committee"] == "Board"
    ensures BucketKey(JaneRow) == "Board"
  {
  }

  /** As written, the loop stops at Jane's row: `TeamMember` has no `image_file`. */
  lemma JaneLoopAsWritten(parse: string -> Option<HttpUrl>, net: Network)
    requires parse(JaneUrl.text) == Some(JaneUrl)
    ensures ProcessRows([JaneRow], State(InitialBuckets([JaneRow]), ImageDir({}, {})), parse, net, ImageFileAttribute)
            == Err(ImageFailed(NoSuchAttribute("image_file")))
  {
    var initial := State(InitialBuckets([JaneRow]), ImageDir({}, {}));
    JaneRowShape();
    JaneRowMember(parse);
    ProcessOneRow(JaneRow, initial, parse, net, ImageFileAttribute);
  }

  lemma JaneInitialBuckets()
    ensures InitialBuckets([JaneRow]) == map["Board" := []]
  {
    JaneRowShape();
    BoardIsTheOnlyCommittee(JaneRow);
  }

  /** Jane's row files her under the Board and stores her picture. */
  lemma JaneRowProcessed(parse: string -> Option<HttpUrl>, net: Network, st: State)
    requires parse(JaneUrl.text) == Some(JaneUrl)
    requires net.head(JaneUrl.text) == Headers(Some("image/jpeg")) && net.get(JaneUrl.text)
    requires st == State(map["Board" := []], ImageDir({}, {}))
    ensures ProcessRow(JaneRow, st, parse, net, ImageUrlField)
            == Ok(State(st.buckets["Board" := st.buckets["Board"] + [Jane]], DirAfter(st.dir, Saved("jane_doe.jpeg"))))
  {
    JaneRowShape();
    JaneRowMember(parse);
    JaneImageSaved(net);
    RowAccepted(JaneRow, st, parse, net, ImageUrlField);
  }

  /** Reading `image_url`, the loop files Jane under the Board and stores her picture. */
  lemma JaneLoop(parse: string -> Option<HttpUrl>, net: Network)
    requires parse(JaneUrl.text) == Some(JaneUrl)
    requires net.head(JaneUrl.text) == Headers(Some("image/jpeg")) && net.get(JaneUrl.text)
    ensures ProcessRows([JaneRow], State(InitialBuckets([JaneRow]), ImageDir({}, {})), parse, net, ImageUrlField)
            == Ok(State(map["Board" := [Jane]], ImageDir({"jane_doe.jpeg"}, {})))
  {
    var st := State(map["Board" := []], ImageDir({}, {}));
    JaneInitialBuckets();
    JaneRowProcessed(parse, net, st);
    JaneFiled(st);
    ProcessOneRow(JaneRow, st, parse, net, ImageUrlField);
  }

  lemma JaneFiled(st: State)
    requires st == State(map["Board" := []], ImageDir({}, {}))
    ensures State(st.buckets["Board" := st.buckets["Board"] + [Jane]], DirAfter(st.dir, Saved("jane_doe.jpeg")))
            == State(map["Board" := [Jane]], ImageDir({"jane_doe.jpeg"}, {}))
  {
    assert st.buckets["Board"] + [Jane] == [Jane];
    assert {} + {"jane_doe.jpeg"} == {"jane_doe.jpeg"};
  }

  /** The worked example as written: the run stops at Jane's row. */
  lemma JaneDoeRunAsWritten(cfg: Config, parse: string -> Option<HttpUrl>, net: Network)
    requires parse(JaneUrl.text) == Some(JaneUrl)
    ensures Enumerates(["Board"], CommitteeKeys([JaneRow]))
    ensures SheetToJsonAsWritten([JaneRow], ["Board"], cfg, parse, ImageDir({}, {}), net)
            == Err(ImageFailed(NoSuchAttribute("image_file")))
  {
    JaneRowShape();
    BoardIsTheOnlyCommittee(JaneRow);
    JaneLoopAsWritten(parse, net);
  }

  /**
   The worked example end to end with the picture read from `image_url`: the Board
   lists Jane as its chair and her picture is stored as `jane_doe.jpeg`.
   */
  lemma JaneDoeRun(cfg: Config, parse: string -> Option<HttpUrl>, net: Network)
    requires parse(JaneUrl.text) == Some(JaneUrl)
    requires net.head(JaneUrl.text) == Headers(Some("image/jpeg")) && net.get(JaneUrl.text)
    ensures Enumerates(["Board"], CommitteeKeys([JaneRow]))
    ensures SheetToJson([JaneRow], ["Board"], cfg, parse, ImageDir({}, {}), net)
            == Ok(Run(DataBag(cfg.teamImages, cfg.defaultImage, [Committee("Board", "", [Jane])]),
                      ImageDir({"jane_doe.jpeg"}, {})))
  {
    JaneRowShape();
    BoardIsTheOnlyCommittee(JaneRow);
    JaneLoop(parse, net);
    JaneExpected(parse);
    SortOne(Committee("Board", "", [Jane]), cfg.sortOrder);
  }

  lemma JaneExpected(parse: string -> Option<HttpUrl>)
    requires parse(JaneUrl.text) == Some(JaneUrl)
    ensures ExpectedCommittees([JaneRow], ["Board"], parse) == [Committee("Board", "", [Jane])]
  {
    JaneRowMember(parse);
    assert [JaneRow][1..] == [];
    assert Accepted([JaneRow], parse) == [Jane];
    assert MembersOf([Jane], "Board") == [Jane];
  }

  /** Sorting a single committee leaves it alone. */
  lemma SortOne(c: Committee, order: seq<string>)
    ensures SortCommittees([c], order) == [c]
  {
    var sorted := SortCommittees([c], order);
    assert |sorted| == 1 && sorted[0] in multiset([c]);
  }

  /** A committee whose every row is excluded is still published, with no members. */
  lemma CommitteeWithoutMembersPublished(cfg: Config, parse: string -> Option<HttpUrl>, dir: ImageDir, net: Network)
    ensures Enumerates(["Board"], CommitteeKeys([SamRow]))
    ensures SheetToJson([SamRow], ["Board"], cfg, parse, dir, net)
            == Ok(Run(DataBag(cfg.teamImages, cfg.defaultImage, [Committee("Board", "", [])]), dir))
  {
    BoardIsTheOnlyCommittee(SamRow);
    SamExcluded(parse);
    var initial := State(InitialBuckets([SamRow]), dir);
    assert ProcessRows([SamRow], initial, parse, net, ImageUrlField) == Ok(initial) by {
      assert ProcessRow(SamRow, initial, parse, net, ImageUrlField) == Ok(initial);
      assert [SamRow][1..] == [];
    }
    assert ExpectedCommittees([SamRow], ["Board"], parse) == [Committee("Board", "", [])];
    SortOne(Committee("Board", "", []), cfg.sortOrder);
  }

  lemma SamExcluded(parse: string -> Option<HttpUrl>)
    ensures !Included(SamRow) && RowShaped(SamRow)
    ensures Accepted([SamRow], parse) == []
  {
    assert |CaseFold("no")| == 2;
    assert [SamRow][1..] == [];
  }
}

=== FILE: stable_sort.dfy ===
/**
 Stable sorting by a natural-number key, as Python's `sorted(xs, key=...)` does it.

 Stability is stated through `KeyFilter`: the elements with a given key appear in
 the output in the same order as in the input. `StableSortUnique` shows that being
 sorted and stable determines the output completely, so the insertion sort used here
 agrees with any other stable sort, Python's Timsort included.
 */
module StableSort {

  /** Keys never decrease from left to right. */
  ghost predicate SortedBy<T>(s: seq<T>, key: T -> nat) {
    forall i, j :: 0 <= i < j < |s| ==> key(s[i]) <= key(s[j])
  }

  /** The elements of `s` whose key is `k`, in their order in `s`. */
  function KeyFilter<T>(s: seq<T>, key: T -> nat, k: nat): (r: seq<T>)
    ensures |r| <= |s|
    ensures forall i :: 0 <= i < |r| ==> key(r[i]) == k
  {
    if s == [] then []
    else (if key(s[0]) == k then [s[0]] else []) + KeyFilter(s[1..], key, k)
  }

  /** Places `x` before the first element whose key is at least its own. */
  function Insert<T>(x: T, s: seq<T>, key: T -> nat): (r: seq<T>)
    ensures |r| == |s| + 1
    ensures multiset(r) == multiset(s) + multiset{x}
  {
    if s == [] || key(x) <= key(s[0]) then [x] + s
    else
      assert s == [s[0]] + s[1..];
      [s[0]] + Insert(x, s[1..], key)
  }

  /** Stable insertion sort: each element is inserted ahead of the later ones with an equal key. */
  function InsertionSort<T>(s: seq<T>, key: T -> nat): (r: seq<T>)
    ensures |r| == |s|
    ensures multiset(r) == multiset(s)
  {
    if s == [] then []
    else
      assert s == [s[0]] + s[1..];
      Insert(s[0], InsertionSort(s[1..], key), key)
  }

  lemma {:induction false} KeyFilterAppend<T>(a: seq<T>, b: seq<T>, key: T -> nat, k: nat)
    ensures KeyFilter(a + b, key, k) == KeyFilter(a, key, k) + KeyFilter(b, key, k)
    decreases |a|
  {
    if a != [] {
      assert (a + b)[1..] == a[1..] + b;
      KeyFilterAppend(a[1..], b, key, k);
    } else {
      assert a + b == b;
    }
  }

  /** A key-`k` filter is empty exactly when no element has key `k`. */
  lemma {:induction false} KeyFilterEmpty<T>(s: seq<T>, key: T -> nat, k: nat)
    ensures KeyFilter(s, key, k) == [] <==> forall i :: 0 <= i < |s| ==> key(s[i]) != k
    decreases |s|
  {
    if s != [] {
      KeyFilterEmpty(s[1..], key, k);
      assert forall i :: 1 <= i < |s| ==> s[i] == s[1..][i - 1];
    }
  }

  lemma KeyFilterOfHead<T>(s: seq<T>, key: T -> nat)
    requires s != []
    ensures KeyFilter(s, key, key(s[0])) != []
  {
  }

  lemma {:induction false} InsertSorted<T>(x: T, s: seq<T>, key: T -> nat)
    requires SortedBy(s, key)
    ensures SortedBy(Insert(x, s, key), key)
    ensures forall i :: 0 <= i < |s| + 1 ==>
              Insert(x, s, key)[i] == x || exists j :: 0 <= j < |s| && Insert(x, s, key)[i] == s[j]
    decreases |s|
  {
    if s != [] && key(x) > key(s[0]) {
      InsertSorted(x, s[1..], key);
      var t := Insert(x, s[1..], key);
      assert Insert(x, s, key) == [s[0]] + t;
      forall i | 0 <= i < |t| ensures key(s[0]) <= key(t[i]) {
        if t[i] != x {
          var j :| 0 <= j < |s[1..]| && t[i] == s[1..][j];
          assert t[i] == s[j + 1];
        }
      }
      forall i | 0 <= i < |t| && t[i] != x ensures exists j :: 0 <= j < |s| && t[i] == s[j] {
        var j :| 0 <= j < |s[1..]| && t[i] == s[1..][j];
        assert t[i] == s[j + 1];
      }
    }
  }

  /** Inserting `x` adds it in front of the elements with its key and leaves the other filters alone. */
  lemma {:induction false} InsertKeyFilter<T>(x: T, s: seq<T>, key: T -> nat, k: nat)
    ensures KeyFilter(Insert(x, s, key), key, k)
            == (if key(x) == k then [x] else []) + KeyFilter(s, key, k)
    decreases |s|
  {
    if s == [] || key(x) <= key(s[0]) {
      assert ([x] + s)[1..] == s;
    } else {
      InsertKeyFilter(x, s[1..], key, k);
      assert ([s[0]] + Insert(x, s[1..], key))[1..] == Insert(x, s[1..], key);
    }
  }

  /** Insertion sort orders by key. */
  lemma {:induction false} InsertionSortSorted<T>(s: seq<T>, key: T -> nat)
    ensures SortedBy(InsertionSort(s, key), key)
    decreases |s|
  {
    if s != [] {
      InsertionSortSorted(s[1..], key);
      InsertSorted(s[0], InsertionSort(s[1..], key), key);
    }
  }

  /** Insertion sort is stable: every key's elements keep their input order. */
  lemma {:induction false} InsertionSortStable<T>(s: seq<T>, key: T -> nat, k: nat)
    ensures KeyFilter(InsertionSort(s, key), key, k) == KeyFilter(s, key, k)
    decreases |s|
  {
    if s != [] {
      InsertionSortStable(s[1..], key, k);
      InsertKeyFilter(s[0], InsertionSort(s[1..], key), key, k);
    }
  }

  /**
   Two sequences that are both sorted by key and agree on every key's filter are
   equal: a stable sort has exactly one possible result.
   */
  lemma {:induction false} StableSortUnique<T>(a: seq<T>, b: seq<T>, key: T -> nat)
    requires SortedBy(a, key) && SortedBy(b, key)
    requires forall k: nat :: KeyFilter(a, key, k) == KeyFilter(b, key, k)
    ensures a == b
    decreases |a|
  {
    if a == [] || b == [] {
      // The first element of a non-empty one would have a non-empty filter.
      if a != [] {
        KeyFilterOfHead(a, key);
      } else if b != [] {
        KeyFilterOfHead(b, key);
      }
    } else {
      var ka, kb := key(a[0]), key(b[0]);
      // b holds an element with key ka, and a one with key kb; sortedness makes them equal.
      assert KeyFilter(b, key, ka) != [] by {
        assert KeyFilter(a, key, ka) != [];
      }
      KeyFilterEmpty(b, key, ka);
      assert kb <= ka;
      assert KeyFilter(a, key, kb) != [] by {
        assert KeyFilter(b, key, kb) != [];
      }
      KeyFilterEmpty(a, key, kb);
      assert ka <= kb;
      assert a[0] == b[0] by {
        assert KeyFilter(a, key, ka)[0] == a[0];
        assert KeyFilter(b, key, ka)[0] == b[0];
      }
      forall k: nat ensures KeyFilter(a[1..], key, k) == KeyFilter(b[1..], key, k) {
        var p := if ka == k then [a[0]] else [];
        assert KeyFilter(a, key, k) == p + KeyFilter(a[1..], key, k);
        assert KeyFilter(b, key, k) == p + KeyFilter(b[1..], key, k);
        assert KeyFilter(a[1..], key, k) == KeyFilter(a, key, k)[|p|..];
        assert KeyFilter(b[1..], key, k) == KeyFilter(b, key, k)[|p|..];
      }
      StableSortUnique(a[1..], b[1..], key);
      assert a == [a[0]] + a[1..];
      assert b == [b[0]] + b[1..];
    }
  }
}

=== FILE: text.dfy ===
/**
 The Python string builtins the roster pipeline relies on, restricted to ASCII:
 `casefold`, `isupper`, `strip`, `split()` on whitespace, `' '.join`,
 `split(sep)[-1]`, `rfind`, `startswith` and `replace`.
 */
module Text {

  /** `str.isspace` on ASCII: space, \t \n \v \f \r and the separators 0x1C-0x1F. */
  predicate IsSpace(c: char) {
    c == ' ' || (9 <= c as int <= 13) || (28 <= c as int <= 31)
  }

  /** `str.isupper` on a single ASCII character. */
  predicate IsUpper(c: char) {
    'A' <= c <= 'Z'
  }

  /** `str.casefold` on a single ASCII character. */
  function Lower(c: char): (r: char)
    ensures !IsUpper(r)
    ensures IsUpper(c) ==> r as int == c as int + 32
    ensures !IsUpper(c) ==> r == c
  {
    if IsUpper(c) then (c as int + 32) as char else c
  }

  /** `str.casefold` on an ASCII string. */
  function CaseFold(s: string): (r: string)
    ensures |r| == |s|
    ensures forall i :: 0 <= i < |r| ==> !IsUpper(r[i])
  {
    seq(|s|, i requires 0 <= i < |s| => Lower(s[i]))
  }

  /** `casefold` works character by character: each position holds the lower-case form of the input's character. */
  lemma CaseFoldPointwise(s: string)
    ensures forall i :: 0 <= i < |s| ==> CaseFold(s)[i] == Lower(s[i])
  {
  }

  /** Casefolding a concatenation casefolds each part. */
  lemma CaseFoldConcat(a: string, b: string)
    ensures CaseFold(a + b) == CaseFold(a) + CaseFold(b)
  {
    assert forall i :: 0 <= i < |a + b| ==> CaseFold(a + b)[i] == (CaseFold(a) + CaseFold(b))[i];
  }

  /** A string with no upper-case letter is its own casefold. */
  lemma CaseFoldOfFolded(s: string)
    requires forall i :: 0 <= i < |s| ==> !IsUpper(s[i])
    ensures CaseFold(s) == s
  {
    assert forall i :: 0 <= i < |s| ==> CaseFold(s)[i] == s[i];
  }

  predicate StartsWith(s: string, prefix: string) {
    |prefix| <= |s| && s[..|prefix|] == prefix
  }

  predicate Contains(s: string, c: char) {
    exists i :: 0 <= i < |s| && s[i] == c
  }

  // ---------------------------------------------------------------------------
  // strip

  /** `str.lstrip()`: the suffix left after dropping leading whitespace. */
  function TrimStart(s: string): (r: string)
    ensures |r| <= |s| && r == s[|s| - |r|..]
    ensures r == [] || !IsSpace(r[0])
    ensures forall i :: 0 <= i < |s| - |r| ==> IsSpace(s[i])
  {
    if s != [] && IsSpace(s[0]) then
      var r := TrimStart(s[1..]);
      assert s[1..][|s| - 1 - |r|..] == s[|s| - |r|..];
      assert forall i :: 1 <= i < |s| - |r| ==> s[i] == s[1..][i - 1];
      r
    else s
  }

  /** `str.rstrip()`: the prefix left after dropping trailing whitespace. */
  function TrimEnd(s: string): (r: string)
    ensures |r| <= |s| && r == s[..|r|]
    ensures r == [] || !IsSpace(r[|r| - 1])
    ensures forall i :: |r| <= i < |s| ==> IsSpace(s[i])
  {
    if s != [] && IsSpace(s[|s| - 1]) then TrimEnd(s[..|s| - 1]) else s
  }

  /** `str.strip()`: a contiguous slice of the input with no whitespace at either end. */
  function Strip(s: string): (r: string)
    ensures |r| <= |s|
    ensures r == [] || (!IsSpace(r[0]) && !IsSpace(r[|r| - 1]))
    ensures (s == [] || (!IsSpace(s[0]) && !IsSpace(s[|s| - 1]))) ==> r == s
    ensures exists a :: SliceBetweenSpace(s, r, a)
  {
    TrimmedSlice(s);
    TrimEnd(TrimStart(s))
  }

  lemma TrimmedSlice(s: string)
    ensures SliceBetweenSpace(s, TrimEnd(TrimStart(s)), |s| - |TrimStart(s)|)
  {
    var t := TrimStart(s);
    SliceBetween(s, t, TrimEnd(t));
  }

  /** Dropping leading whitespace and then trailing whitespace leaves a slice between whitespace. */
  lemma SliceBetween(s: string, t: string, r: string)
    requires |t| <= |s| && t == s[|s| - |t|..]
    requires forall i :: 0 <= i < |s| - |t| ==> IsSpace(s[i])
    requires |r| <= |t| && r == t[..|r|]
    requires forall i :: |r| <= i < |t| ==> IsSpace(t[i])
    ensures SliceBetweenSpace(s, r, |s| - |t|)
  {
    var a := |s| - |t|;
    assert r == s[a..a + |r|];
    forall i | a + |r| <= i < |s| ensures IsSpace(s[i]) {
      assert s[i] == t[i - a];
    }
  }

  /** `r` is the slice of `s` starting at `a`, and everything of `s` outside it is whitespace. */
  predicate SliceBetweenSpace(s: string, r: string, a: int) {
    && 0 <= a && a + |r| <= |s| && r == s[a..a + |r|]
    && (forall i :: 0 <= i < a ==> IsSpace(s[i]))
    && (forall i :: a + |r| <= i < |s| ==> IsSpace(s[i]))
  }

  /** Stripping is idempotent: a stripped string has nothing left to strip. */
  lemma StripIdempotent(s: string)
    ensures Strip(Strip(s)) == Strip(s)
  {
    var r := Strip(s);
    if r != [] {
      assert TrimStart(r) == r;
      assert TrimEnd(r) == r;
    }
  }

  /** Every character of `s` is whitespace. */
  predicate AllSpace(s: string) {
    forall i :: 0 <= i < |s| ==> IsSpace(s[i])
  }

  lemma AllSpaceTail(p: string)
    requires p != [] && AllSpace(p)
    ensures IsSpace(p[0]) && AllSpace(p[1..])
  {
    assert forall i :: 0 <= i < |p| - 1 ==> p[1..][i] == p[i + 1];
  }

  lemma AllSpaceInit(q: string)
    requires q != [] && AllSpace(q)
    ensures IsSpace(q[|q| - 1]) && AllSpace(q[..|q| - 1])
  {
  }

  /** Leading whitespace in front of a string is dropped by `lstrip` together with the string's own. */
  lemma {:induction false} TrimStartSkipsSpace(p: string, s: string)
    requires AllSpace(p)
    ensures TrimStart(p + s) == TrimStart(s)
    decreases |p|
  {
    if p == [] {
      assert p + s == s;
    } else {
      AllSpaceTail(p);
      assert (p + s)[0] == p[0];
      assert (p + s)[1..] == p[1..] + s;
      TrimStartSkipsSpace(p[1..], s);
    }
  }

  /** Trailing whitespace after a string is dropped by `rstrip` together with the string's own. */
  lemma {:induction false} TrimEndSkipsSpace(s: string, q: string)
    requires AllSpace(q)
    ensures TrimEnd(s + q) == TrimEnd(s)
    decreases |q|
  {
    if q == [] {
      assert s + q == s;
    } else {
      var init := q[..|q| - 1];
      AllSpaceInit(q);
      assert (s + q)[|s + q| - 1] == q[|q| - 1];
      assert (s + q)[..|s + q| - 1] == s + init;
      TrimEndSkipsSpace(s, init);
    }
  }

  lemma TrimStartOfSpace(q: string)
    requires AllSpace(q)
    ensures TrimStart(q) == []
  {
    TrimStartSkipsSpace(q, []);
    assert q + [] == q;
  }

  /** `lstrip` of a string followed by whitespace: the whitespace is kept unless nothing else is left. */
  lemma {:induction false} TrimStartThenSpace(s: string, q: string)
    requires AllSpace(q)
    ensures TrimStart(s + q) == (if TrimStart(s) == [] then [] else TrimStart(s) + q)
    decreases |s|
  {
    if s == [] {
      assert s + q == q;
      TrimStartOfSpace(q);
    } else {
      assert (s + q)[0] == s[0];
      if IsSpace(s[0]) {
        assert (s + q)[1..] == s[1..] + q;
        TrimStartThenSpace(s[1..], q);
      }
    }
  }

  /** `lstrip` then `rstrip` ignores whitespace on either side. */
  lemma TrimBothIgnoresPadding(p: string, s: string, q: string)
    requires AllSpace(p) && AllSpace(q)
    ensures TrimEnd(TrimStart(p + s + q)) == TrimEnd(TrimStart(s))
  {
    assert p + s + q == p + (s + q);
    TrimStartSkipsSpace(p, s + q);
    TrimStartThenSpace(s, q);
    if TrimStart(s) != [] {
      TrimEndSkipsSpace(TrimStart(s), q);
    }
  }

  /** Whitespace around a string, of any length on either side, does not change what `strip` leaves. */
  lemma StripIgnoresPadding(p: string, s: string, q: string)
    requires AllSpace(p) && AllSpace(q)
    ensures Strip(p + s + q) == Strip(s)
  {
    TrimBothIgnoresPadding(p, s, q);
  }

  // ---------------------------------------------------------------------------
  // split() and ' '.join

  /** A word as `str.split()` returns it: non-empty, no whitespace. */
  predicate IsWord(w: string) {
    |w| > 0 && forall i :: 0 <= i < |w| ==> !IsSpace(w[i])
  }

  /** The longest whitespace-free prefix of `s`. */
  function FirstWord(s: string): (w: string)
    ensures |w| <= |s| && w == s[..|w|]
    ensures forall i :: 0 <= i < |w| ==> !IsSpace(w[i])
    ensures |w| == |s| || IsSpace(s[|w|])
  {
    if s == [] || IsSpace(s[0]) then [] else [s[0]] + FirstWord(s[1..])
  }

  /** `str.split()` with no separator: the maximal runs of non-whitespace, in order. */
  function Split(s: string): (ws: seq<string>)
    ensures forall i :: 0 <= i < |ws| ==> IsWord(ws[i])
    decreases |s|
  {
    var t := TrimStart(s);
    if t == [] then []
    else
      var w := FirstWord(t);
      assert |w| > 0;
      var ws := Split(t[|w|..]);
      WordsCons(w, ws);
      [w] + ws
  }

  lemma WordsCons(w: string, ws: seq<string>)
    requires IsWord(w) && forall i :: 0 <= i < |ws| ==> IsWord(ws[i])
    ensures forall i :: 0 <= i < |[w] + ws| ==> IsWord(([w] + ws)[i])
  {
    assert forall i :: 1 <= i < |ws| + 1 ==> ([w] + ws)[i] == ws[i - 1];
  }

  /** The summed lengths of `ws`. */
  function TotalLength(ws: seq<string>): nat {
    if ws == [] then 0 else |ws[0]| + TotalLength(ws[1..])
  }

  /** `' '.join(ws)`. */
  function Join(ws: seq<string>): (r: string)
    ensures |ws| > 0 ==> |r| == TotalLength(ws) + |ws| - 1
  {
    if |ws| == 0 then []
    else if |ws| == 1 then ws[0]
    else ws[0] + [' '] + Join(ws[1..])
  }

  /** `' '.join` of words puts a single space between neighbouring words and none at either end. */
  lemma {:induction false} JoinSpacing(ws: seq<string>)
    requires forall i :: 0 <= i < |ws| ==> IsWord(ws[i])
    ensures var j := Join(ws);
            forall i :: 0 <= i < |j| && IsSpace(j[i]) ==>
              j[i] == ' ' && 0 < i < |j| - 1 && !IsSpace(j[i - 1]) && !IsSpace(j[i + 1])
    decreases |ws|
  {
    if |ws| >= 2 {
      var w, rest := ws[0], ws[1..];
      assert forall i :: 0 <= i < |rest| ==> IsWord(rest[i]) by {
        forall i | 0 <= i < |rest| ensures IsWord(rest[i]) {
          assert rest[i] == ws[i + 1];
        }
      }
      JoinSpacing(rest);
      JoinStartsWithWord(rest);
      var t := Join(rest);
      var j := Join(ws);
      assert j == w + [' '] + t;
      assert IsWord(w);
      forall i | 0 <= i < |j|
        ensures IsSpace(j[i]) ==> j[i] == ' ' && 0 < i < |j| - 1 && !IsSpace(j[i - 1]) && !IsSpace(j[i + 1])
      {
        if i < |w| {
          assert j[i] == w[i];
        } else if i == |w| {
          assert j[i - 1] == w[|w| - 1];
          assert j[i + 1] == t[0];
        } else {
          var k := i - |w| - 1;
          assert j[i] == t[k];
          assert j[i - 1] == (if k == 0 then ' ' else t[k - 1]);
          assert k + 1 < |t| ==> j[i + 1] == t[k + 1];
        }
      }
    }
  }

  lemma {:induction false} FirstWordOfConcat(w: string, rest: string)
    requires IsWord(w) || w == []
    requires rest == [] || IsSpace(rest[0])
    ensures FirstWord(w + rest) == w
    decreases |w|
  {
    if w == [] {
      assert w + rest == rest;
    } else {
      assert (w + rest)[1..] == w[1..] + rest;
      FirstWordOfConcat(w[1..], rest);
    }
  }

  lemma SplitSkipsSpace(c: char, s: string)
    requires IsSpace(c)
    ensures Split([c] + s) == Split(s)
  {
    assert ([c] + s)[1..] == s;
    assert TrimStart([c] + s) == TrimStart(s);
  }

  /** A non-empty join starts with its first word, so it does not start with whitespace. */
  lemma JoinStartsWithWord(ws: seq<string>)
    requires |ws| > 0 && forall i :: 0 <= i < |ws| ==> IsWord(ws[i])
    ensures |Join(ws)| > 0 && !IsSpace(Join(ws)[0])
  {
    assert Join(ws)[0] == ws[0][0];
  }

  /** A word followed by whitespace (or nothing) is split off first. */
  lemma SplitWordThen(w: string, tail: string)
    requires IsWord(w) && (tail == [] || IsSpace(tail[0]))
    ensures Split(w + tail) == [w] + Split(tail)
  {
    assert TrimStart(w + tail) == w + tail by {
      assert (w + tail)[0] == w[0];
    }
    FirstWordOfConcat(w, tail);
    assert (w + tail)[|w|..] == tail;
  }

  lemma SplitWord(w: string)
    requires IsWord(w)
    ensures Split(w) == [w]
  {
    assert TrimStart(w) == w;
    FirstWordOfConcat(w, []);
    assert w + [] == w;
    assert FirstWord(w) == w;
    assert w[|w|..] == [];
    assert Split([]) == [];
  }

  lemma ConcatAssoc<T>(a: seq<T>, b: seq<T>, c: seq<T>)
    ensures a + b + c == a + (b + c)
  {
  }

  lemma HeadTail<T>(s: seq<T>)
    requires |s| > 0
    ensures [s[0]] + s[1..] == s
  {
  }

  /** Putting a word in front of a joined list puts it in front of the split. */
  lemma SplitJoinCons(w: string, rest: seq<string>)
    requires IsWord(w) && |rest| > 0 && Split(Join(rest)) == rest
    ensures Split(Join([w] + rest)) == [w] + rest
  {
    var tail := [' '] + Join(rest);
    assert Join([w] + rest) == w + tail by {
      assert ([w] + rest)[1..] == rest;
      assert Join([w] + rest) == w + [' '] + Join(rest);
      ConcatAssoc(w, [' '], Join(rest));
    }
    calc {
      Split(Join([w] + rest));
      Split(w + tail);
      { SplitWordThen(w, tail); }
      [w] + Split(tail);
      { SplitSkipsSpace(' ', Join(rest)); }
      [w] + rest;
    }
  }

  /** Splitting undoes joining: `' '.join` of words, split again, gives back the same words. */
  lemma {:induction false} SplitJoin(ws: seq<string>)
    requires forall i :: 0 <= i < |ws| ==> IsWord(ws[i])
    ensures Split(Join(ws)) == ws
    decreases |ws|
  {
    if |ws| == 0 {
      assert Join(ws) == [];
    } else if |ws| == 1 {
      SplitWord(ws[0]);
    } else {
      var rest := ws[1..];
      assert forall i :: 0 <= i < |rest| ==> IsWord(rest[i]) by {
        forall i | 0 <= i < |rest| ensures IsWord(rest[i]) {
          assert rest[i] == ws[i + 1];
        }
      }
      SplitJoin(rest);
      SplitJoinCons(ws[0], rest);
      HeadTail(ws);
    }
  }

  // ---------------------------------------------------------------------------
  // split(sep)[-1], rfind

  /** `s.split(sep)[-1]`: the text after the last `sep`, or all of `s` when there is none. */
  function AfterLast(s: string, sep: char): (r: string)
    ensures |r| <= |s| && r == s[|s| - |r|..]
    ensures !Contains(r, sep)
    ensures |r| == |s| || s[|s| - |r| - 1] == sep
  {
    if s == [] then []
    else if s[|s| - 1] == sep then []
    else AfterLast(s[..|s| - 1], sep) + [s[|s| - 1]]
  }

  /** `split(sep)[-1]` is everything after the last separator, whatever precedes it. */
  lemma {:induction false} AfterLastSeparator(p: string, t: string, sep: char)
    requires !Contains(t, sep)
    ensures AfterLast(p + [sep] + t, sep) == t
    decreases |t|
  {
    var s := p + [sep] + t;
    if t == [] {
      assert s[|s| - 1] == sep;
    } else {
      var init := t[..|t| - 1];
      assert !Contains(init, sep) by {
        assert forall i :: 0 <= i < |init| ==> init[i] == t[i];
      }
      AfterLastSeparator(p, init, sep);
      var last := t[|t| - 1];
      assert t == init + [last];
      assert s == (p + [sep] + init) + [last];
      assert s[..|s| - 1] == p + [sep] + init && s[|s| - 1] == last;
    }
  }

  function LastIndexOf(s: string, c: char): (i: int)
    ensures -1 <= i < |s|
    ensures 0 <= i ==> s[i] == c
    ensures forall j :: i < j < |s| ==> s[j] != c
  {
    if s == [] then -1
    else if s[|s| - 1] == c then |s| - 1
    else LastIndexOf(s[..|s| - 1], c)
  }

  // ---------------------------------------------------------------------------
  // replace

  /** `pat` occurs in `s` starting at index `i`. */
  predicate OccursAt(s: string, pat: string, i: nat) {
    i + |pat| <= |s| && s[i..i + |pat|] == pat
  }

  /** `s.replace(pat, rep)`: every occurrence of `pat`, scanned left to right without overlap, becomes `rep`. */
  function ReplaceAll(s: string, pat: string, rep: string): (r: string)
    requires |pat| > 0
    ensures |rep| == |pat| ==> |r| == |s|
    decreases |s|
  {
    if s == [] then []
    else if StartsWith(s, pat) then rep + ReplaceAll(s[|pat|..], pat, rep)
    else [s[0]] + ReplaceAll(s[1..], pat, rep)
  }

  /** An occurrence at the front is replaced, and the scan resumes right after it. */
  lemma ReplaceAllAtPattern(pat: string, t: string, rep: string)
    requires |pat| > 0
    ensures ReplaceAll(pat + t, pat, rep) == rep + ReplaceAll(t, pat, rep)
  {
    assert StartsWith(pat + t, pat);
    assert (pat + t)[|pat|..] == t;
  }

  /** A first character where no occurrence starts is copied, and the scan moves on by one. */
  lemma ReplaceAllSkipsChar(c: char, t: string, pat: string, rep: string)
    requires |pat| > 0 && !StartsWith([c] + t, pat)
    ensures ReplaceAll([c] + t, pat, rep) == [c] + ReplaceAll(t, pat, rep)
  {
    assert ([c] + t)[1..] == t;
  }

  /** No character of `rep` occurs in `pat`. */
  predicate Disjoint(pat: string, rep: string) {
    forall i, j :: 0 <= i < |rep| && 0 <= j < |pat| ==> rep[i] != pat[j]
  }

  /** A string without the pattern is left alone by `replace`. */
  lemma {:induction false} ReplaceAllWithoutPattern(s: string, pat: string, rep: string)
    requires |pat| > 0
    requires forall i: nat :: !OccursAt(s, pat, i)
    ensures ReplaceAll(s, pat, rep) == s
    decreases |s|
  {
    if s != [] {
      assert !OccursAt(s, pat, 0);
      forall i: nat ensures !OccursAt(s[1..], pat, i) {
        assert OccursAt(s[1..], pat, i) ==> OccursAt(s, pat, i + 1) by {
          if i + |pat| <= |s[1..]| {
            assert s[1..][i..i + |pat|] == s[i + 1..i + 1 + |pat|];
          }
        }
      }
      ReplaceAllWithoutPattern(s[1..], pat, rep);
    }
  }

  /** A prefix of the output that holds no character of `rep` was copied verbatim from the input. */
  lemma {:induction false} ReplaceAllCopiesPrefix(t: string, pat: string, rep: string, n: nat)
    requires |pat| > 0 && |rep| > 0
    requires n <= |ReplaceAll(t, pat, rep)|
    requires forall k, j :: 0 <= k < n && 0 <= j < |rep| ==> ReplaceAll(t, pat, rep)[k] != rep[j]
    ensures n <= |t| && ReplaceAll(t, pat, rep)[..n] == t[..n]
    decreases n
  {
    if n > 0 {
      var r := ReplaceAll(t, pat, rep);
      assert t != [];
      assert r[0] != rep[0];
      if StartsWith(t, pat) {
        assert false;
      }
      var rest := ReplaceAll(t[1..], pat, rep);
      assert r == [t[0]] + rest;
      assert forall k :: 0 <= k < n - 1 ==> rest[k] == r[k + 1];
      ReplaceAllCopiesPrefix(t[1..], pat, rep, n - 1);
      assert r[..n] == [t[0]] + ReplaceAll(t[1..], pat, rep)[..n - 1];
    }
  }

  /** Behind a prefix, occurrences shift by the prefix's length. */
  lemma OccursAtShift(pre: string, rest: string, pat: string, i: nat)
    requires |pre| <= i
    ensures OccursAt(pre + rest, pat, i) == OccursAt(rest, pat, i - |pre|)
  {
    if i + |pat| <= |pre + rest| {
      assert (pre + rest)[i..i + |pat|] == rest[i - |pre|..i - |pre| + |pat|];
    }
  }

  /** A replacement character within the first `|pat|` positions rules out the pattern there. */
  lemma RepCharBreaksPattern(r: string, pat: string, rep: string, k: nat, j: nat)
    requires Disjoint(pat, rep)
    requires k < |pat| && k < |r| && j < |rep| && r[k] == rep[j]
    ensures !OccursAt(r, pat, 0)
  {
    if |pat| <= |r| {
      assert r[..|pat|][k] == rep[j];
      assert pat[k] != rep[j];
    }
  }

  lemma PrefixCons<T>(x: T, a: seq<T>, b: seq<T>, n: nat)
    requires n <= |a| && n <= |b| && a[..n] == b[..n]
    ensures ([x] + a)[..n + 1] == ([x] + b)[..n + 1]
  {
    assert forall i :: 0 < i < n + 1 ==> ([x] + a)[i] == a[..n][i - 1];
    assert forall i :: 0 < i < n + 1 ==> ([x] + b)[i] == b[..n][i - 1];
  }

  /** Where the input does not start with the pattern, neither does the output. */
  lemma NoPatternAtHead(s: string, pat: string, rep: string)
    requires |pat| > 0 && |rep| > 0 && Disjoint(pat, rep)
    requires s != [] && !StartsWith(s, pat)
    ensures !OccursAt(ReplaceAll(s, pat, rep), pat, 0)
  {
    var r := ReplaceAll(s, pat, rep);
    var rest := ReplaceAll(s[1..], pat, rep);
    assert r == [s[0]] + rest;
    var n := |pat| - 1;
    if |pat| <= |r| {
      if k, j :| 0 <= k < n && 0 <= j < |rep| && rest[k] == rep[j] {
        // A replacement character was emitted where the pattern has none.
        assert r[k + 1] == rest[k];
        RepCharBreaksPattern(r, pat, rep, k + 1, j);
      } else {
        // Otherwise the first |pat| characters were copied from the input.
        ReplaceAllCopiesPrefix(s[1..], pat, rep, n);
        PrefixCons(s[0], rest, s[1..], n);
        HeadTail(s);
      }
    }
  }

  /**
   When the replacement is non-empty and shares no character with the pattern,
   `replace` leaves no occurrence of the pattern behind.
   */
  lemma {:induction false} ReplaceAllRemovesPattern(s: string, pat: string, rep: string)
    requires |pat| > 0 && |rep| > 0 && Disjoint(pat, rep)
    ensures forall i: nat :: !OccursAt(ReplaceAll(s, pat, rep), pat, i)
    decreases |s|
  {
    if s != [] {
      var r := ReplaceAll(s, pat, rep);
      if StartsWith(s, pat) {
        var rest := ReplaceAll(s[|pat|..], pat, rep);
        ReplaceAllRemovesPattern(s[|pat|..], pat, rep);
        assert r == rep + rest;
        forall i: nat ensures !OccursAt(r, pat, i) {
          if i < |rep| {
            if i + |pat| <= |r| {
              assert r[i..i + |pat|][0] == rep[i];
              assert pat[0] != rep[i];
            }
          } else {
            OccursAtShift(rep, rest, pat, i);
          }
        }
      } else {
        var rest := ReplaceAll(s[1..], pat, rep);
        ReplaceAllRemovesPattern(s[1..], pat, rep);
        assert r == [s[0]] + rest;
        forall i: nat ensures !OccursAt(r, pat, i) {
          if i == 0 {
            NoPatternAtHead(s, pat, rep);
          } else {
            OccursAtShift([s[0]], rest, pat, i);
          }
        }
      }
    }
  }

  /** Under the same conditions, `replace` is idempotent. */
  lemma ReplaceAllIdempotent(s: string, pat: string, rep: string)
    requires |pat| > 0 && |rep| > 0 && Disjoint(pat, rep)
    ensures ReplaceAll(ReplaceAll(s, pat, rep), pat, rep) == ReplaceAll(s, pat, rep)
  {
    ReplaceAllRemovesPattern(s, pat, rep);
    ReplaceAllWithoutPattern(ReplaceAll(s, pat, rep), pat, rep);
  }
}

=== FILE: utils.dfy ===
/** `obfuscate_name` (team_page/utils.py): masks every capitalised word of a name. */
module Utils {
  import opened Text

  /** `'*' * n`. */
  function Stars(n: nat): (r: string)
    ensures |r| == n && forall i :: 0 <= i < n ==> r[i] == '*'
  {
    seq(n, _ => '*')
  }

  /** `mask_name`: keeps the first character and hides the rest behind asterisks. */
  function MaskName(name: string): (r: string)
    requires |name| > 0
    ensures |r| == |name| && r[0] == name[0]
    ensures forall i :: 1 <= i < |r| ==> r[i] == '*'
  {
    [name[0]] + Stars(|name| - 1)
  }

  /** One word of the output: masked when it starts with an upper-case letter, else unchanged. */
  function MaskWord(w: string): (r: string)
    requires IsWord(w)
    ensures IsWord(r) && |r| == |w| && r[0] == w[0]
    ensures IsUpper(w[0]) ==> forall i :: 1 <= i < |r| ==> r[i] == '*'
    ensures !IsUpper(w[0]) ==> r == w
  {
    if IsUpper(w[0]) then MaskName(w) else w
  }

  /** Masking a word twice masks it once: a masked word still starts upper-case and `*` is not a letter. */
  lemma MaskWordIdempotent(w: string)
    requires IsWord(w)
    ensures MaskWord(MaskWord(w)) == MaskWord(w)
  {
    if IsUpper(w[0]) {
      var m := MaskWord(w);
      assert MaskName(m) == m;
    }
  }

  /** `MaskWord` applied to every word. */
  function MaskWords(ws: seq<string>): (r: seq<string>)
    requires forall i :: 0 <= i < |ws| ==> IsWord(ws[i])
    ensures |r| == |ws|
    ensures forall i :: 0 <= i < |r| ==> IsWord(r[i]) && r[i] == MaskWord(ws[i])
  {
    seq(|ws|, i requires 0 <= i < |ws| => MaskWord(ws[i]))
  }

  /**
   `obfuscate_name(text)`: the words of `text` (split on whitespace) joined by single
   spaces, each upper-case-initial word masked. Splitting the output gives back, word
   for word, the masked input words.
   */
  function ObfuscateName(text: string): (r: string)
    ensures Split(r) == MaskWords(Split(text))
    ensures forall i :: 0 <= i < |r| && IsSpace(r[i]) ==>
              r[i] == ' ' && 0 < i < |r| - 1 && !IsSpace(r[i - 1]) && !IsSpace(r[i + 1])
  {
    var masked := MaskWords(Split(text));
    SplitJoin(masked);
    JoinSpacing(masked);
    Join(masked)
  }

  /** The output has exactly as many words as the input, each of the same length. */
  lemma ObfuscatePreservesWords(text: string)
    ensures |Split(ObfuscateName(text))| == |Split(text)|
    ensures forall i :: 0 <= i < |Split(text)| ==>
              |Split(ObfuscateName(text))[i]| == |Split(text)[i]|
  {
  }

  /** A word is masked exactly when its first character is upper case; other words pass through. */
  lemma ObfuscateMasksCapitalised(text: string, i: nat)
    requires i < |Split(text)|
    ensures var w, o := Split(text)[i], Split(ObfuscateName(text))[i];
            IsUpper(w[0]) ==> |o| == |w| && o[0] == w[0] && forall k :: 1 <= k < |o| ==> o[k] == '*'
    ensures var w, o := Split(text)[i], Split(ObfuscateName(text))[i];
            !IsUpper(w[0]) ==> o == w
  {
  }

  /** Obfuscating an obfuscated name changes nothing. */
  lemma {:induction false} ObfuscateIdempotent(text: string)
    ensures ObfuscateName(ObfuscateName(text)) == ObfuscateName(text)
  {
    var ws := Split(text);
    var once := MaskWords(ws);
    assert Split(ObfuscateName(text)) == once;
    var twice := MaskWords(once);
    forall i | 0 <= i < |ws| ensures twice[i] == once[i] {
      MaskWordIdempotent(ws[i]);
    }
    assert twice == once;
  }
}

=== FILE: wrappers.dfy ===
/** Failure-carrying datatypes shared by the model. */
module Wrappers {

  /** A value that may be absent (Python's `None`). */
  datatype Option<+T> = None | Some(value: T)

  /** The outcome of a step that either produces a value or raises. */
  datatype Result<+T, +E> = Ok(value: T) | Err(error: E)
}
